=== FILE: README.md ===
# Deprecation utilities of `colour`, modelled in Dafny

This project models the API-deprecation bookkeeping of the `colour` package
(`colour/utilities/deprecation.py`). It covers:

- **the six change records**: `ObjectRenamed`, `ObjectRemoved`, `ObjectFutureRename`,
  `ObjectFutureRemove`, `ObjectFutureAccessChange` and `ObjectFutureAccessRemove`. These are
  named tuples of one or two dotted names, and each has a fixed message template.
- **`build_API_changes`**: pops each kind's list out of a dictionary keyed by kind name. It
  stores one record per entry, in the same dictionary, keyed by the text after the last `.`
  of the entry's first name (its *short name*).
- **`ModuleAPI`**: a wrapper around a module whose attribute access consults the records,
  and whose `__dir__` hides the names that have a record.
- **`get_attribute`**: resolves a dotted name by splitting it at its last `.`.

Files:

- `wrappers.dfy`: `Option` and `Result`.
- `names.dfy` (`DottedNames`): `split('.')[-1]` and `rsplit('.', 1)`.
- `texts.dfy` (`MessageTexts`): the literal text of the six message templates.
- `changes.dfy` (`ChangeRecords`): the records and their messages. It also has a reader for
  messages, which shows that a message determines its record.
- `build.dfy` (`ApiChanges`): `build_API_changes`, in two forms:
  - a specification function `Build`, which folds over the kinds;
  - the imperative method `BuildApiChanges`, which rewrites a `ChangeDict` object in place
    and is proved to leave exactly `Build`'s dictionary.
- `assign.dfy` (`Assignments`): a sequence of `d[key] = value` assignments, for any key and
  value types: which keys the dictionary then has and which value each holds.
- `concat.dfy` (`Concatenation`): joining the outputs of several passes, any of which may
  raise, into one sequence.
- `build_properties.dfy` (`ApiChangeProperties`): what the rewrite leaves.
  - It defines a *plan*: the sequence of records the rewrite inserts, in insertion order.
  - It proves which keys remain, which entries pass through untouched, and which record wins
    a clash of short names.
- `module_api.dfy` (`ModuleApis`): `ModuleAPI.__init__`, `__getattr__`, `__dir__` and
  `get_attribute`.

How Python's behaviour maps onto the model:

- A Python exception in `build_API_changes` becomes `Failed(dict, error)`. `dict` is the
  dictionary as it stood when Python raised, because the rewrite is not atomic.
- An item of a kind's list is a string (`Name`) or a list of strings (`NameList`).
  - A two-field kind calls `change_type(*change)`. So a two-element list gives its two names,
    and a two-character string gives its two characters. Any other item raises.
  - A one-field kind needs a string, because of `change.split`.
  - If a record has landed under a kind name and is then popped, it is iterated field by
    field, as a named tuple is.
- Attribute access returns an `Access`: the warning `usage_warning` would emit, if any, and
  the value or the exception.
- A module is a `Namespace`: its `dir()` listing and its attribute values. `Lookup` is
  `getattr(module, name)`: the value, or an `AttributeError` naming the missing attribute.
- `FindModule` is `sys.modules.get(name)`, falling back on `import_module(name)`. It gives
  no module exactly when neither knows the name.
- `NewModuleApi` is `ModuleAPI(module, changes=None)`: it keeps the module and uses
  `changes or {}`.

## Model

| member | source | states |
|---|---|---|
| DottedNames.ShortNameIsLastPart | colour/utilities/deprecation.py:356 | `split('.')[-1]` gives a dot-free suffix of the name. That suffix is either the whole name (when there is no `.`) or preceded by a `.`, so it is the text after the last `.`. |
| DottedNames.RSplitDotSplits | colour/utilities/deprecation.py:292 | `rsplit('.', 1)` succeeds exactly when the name holds a `.`. Namespace + `.` + attribute rebuilds the name, and the attribute holds no `.`. |
| DottedNames.ShortNameOfJoin | colour/utilities/deprecation.py:356 | The short name of `namespace.attribute`, for a dot-free attribute, is that attribute. |
| DottedNames.RSplitDotOfJoin | colour/utilities/deprecation.py:292 | `rsplit('.', 1)` undoes joining a namespace and a dot-free attribute with a `.`. |
| DottedNames.RSplitDotAgreesWithShortName | colour/utilities/deprecation.py:292 | The attribute `rsplit` keeps is the short name that `split('.')[-1]` gives. |
| ChangeRecords.Change.Fields | colour/utilities/deprecation.py:33-187 | A record has two fields for the rename and access-change kinds and one field otherwise, as its named tuple declares. |
| ChangeRecords.Make | colour/utilities/deprecation.py:33-187 | `change_type(*fields)` builds the record of that kind with exactly those fields. |
| ChangeRecords.Message | colour/utilities/deprecation.py:45-187 | `str(change)` opens with the record's first field in double quotes. |
| ChangeRecords.MessageLayout | colour/utilities/deprecation.py:55-187 | Each message is its template with the record's fields in double quotes, unchanged and in field order. |
| ChangeRecords.DecodeMessage | colour/utilities/deprecation.py:45-187 | Reading a message back gives the record it was made from, when no field holds a double quote. |
| ChangeRecords.MessageInjective | colour/utilities/deprecation.py:45-187 | Two records with quote-free fields and the same message are equal, so a message names its record exactly. |
| ChangeRecords.SkeletonsDiffer | colour/utilities/deprecation.py:45-187 | Two kinds with the same number of fields have different template texts. |
| ApiChanges.Convert | colour/utilities/deprecation.py:353-361 | Which items each kind accepts and the record each becomes. A two-field kind takes a two-element list as `(name, new_name)`, or a two-character string as its two characters. A one-field kind takes a string as `(name)`. Every other item is the error path. |
| ApiChanges.ChangeDict.Pop | colour/utilities/deprecation.py:355 | `dict.pop(key, [])`: returns the value, or an empty list when the key is absent, and removes the key. |
| ApiChanges.ChangeDict.Set | colour/utilities/deprecation.py:356 | `dict[key] = value`. |
| ApiChanges.InsertRequested | colour/utilities/deprecation.py:355-356 | The inner loop leaves the dictionary that `InsertItems` specifies. If an item is unusable, it stops there and reports that item. |
| ApiChanges.KeyOfDottedName | colour/utilities/deprecation.py:356 | A record is stored under the attribute after the last `.` of its first name, and under the whole name when that has no `.`. |
| ApiChanges.BuildErrorIsUnusable | colour/utilities/deprecation.py:353-361 | When `build_API_changes` raises, the item it raises on is one its kind's record cannot be made from. |
| ApiChanges.AbsentKindUnchanged | colour/utilities/deprecation.py:355 | A kind with no list in the dictionary pops an empty list and changes nothing. |
| ApiChanges.CollisionLosesPendingList | colour/utilities/deprecation.py:353-361 | In `{"ObjectRenamed": [["a.ObjectRemoved", "b"]], "ObjectRemoved": ["p.q"]}` the rename is stored under "ObjectRemoved" and replaces that list. The removal pass then iterates the rename's fields, so `b` is recorded as removed and `p.q` is never recorded. |
| ApiChanges.CollisionOutcome | colour/utilities/deprecation.py:353-361 | The same for any list under "ObjectRemoved": the whole result is "ObjectRemoved" holding the removal of the rename's old name and the rename's new name holding its own removal, whatever that list held. |
| ApiChanges.BuildApiChanges | colour/utilities/deprecation.py:353-363 | `build_API_changes` rewrites the given dictionary in place into `Build` of its old value. It returns that same dictionary exactly when `Build` succeeds, and otherwise the error `Build` reports. |
| ApiChanges.InsertItemsFailedStays | colour/utilities/deprecation.py:355-356 | After an item raises, the rest of the list changes nothing. |
| ApiChanges.ApplyKindsFailedStays | colour/utilities/deprecation.py:353-361 | After a kind raises, the remaining kinds change nothing. |
| ApiChangeProperties.ConvertedPointwise | colour/utilities/deprecation.py:355-361 | A kind's list converts exactly when every item converts, and then it gives one record per item, in order. |
| Assignments.AssignKeys | colour/utilities/deprecation.py:356 | After a sequence of `d[key] = value` assignments, the keys are the old keys plus the assigned ones. |
| Assignments.AssignUntouched | colour/utilities/deprecation.py:356 | A key that no assignment uses keeps its old value. |
| Assignments.AssignHoldsLast | colour/utilities/deprecation.py:356 | An assigned key holds the value of the last assignment to it. |
| Assignments.LastAtIsLast | colour/utilities/deprecation.py:356 | `LastAt` finds the position of the last assignment to a key: it has that key and no later one does. |
| Assignments.LastAtFound | colour/utilities/deprecation.py:356 | There is a last assignment to a key exactly when some assignment uses it. |
| Assignments.AssignAppend | colour/utilities/deprecation.py:355-356 | Running two batches of assignments one after the other is running their concatenation. |
| Assignments.AssignRemove | colour/utilities/deprecation.py:355-356 | Popping a key that no assignment uses commutes with the assignments. |
| Assignments.LastAtOfJoin | colour/utilities/deprecation.py:355-356 | In three batches run in order, an assignment of the middle batch is the last to its key when nothing after it in that batch, and nothing in the final batch, uses the key. |
| Concatenation.ConcatSome | colour/utilities/deprecation.py:353-361 | Joining the outputs of several passes succeeds exactly when every pass does. |
| Concatenation.ConcatAppend | colour/utilities/deprecation.py:353-361 | Joining two runs of passes is joining each run and appending the results, and it fails exactly when one of them fails. |
| Concatenation.ConcatOrigin | colour/utilities/deprecation.py:353-361 | Every element of a successful join comes from one of the passes. |
| ApiChangeProperties.InsertItemsAssign | colour/utilities/deprecation.py:355-356 | The inner loop succeeds exactly when every item converts. It then assigns the converted records one after another, each under its short name. |
| ApiChangeProperties.LastKeyedIsLast | colour/utilities/deprecation.py:356 | `LastKeyed` finds the last record with a given short name, and exists exactly when some record has that short name. |
| ApiChangeProperties.LastKeyedOfJoin | colour/utilities/deprecation.py:355-356 | In records inserted in three runs, a record of the middle run is the last with its short name when no later record of that run and no record of the final run shares it. |
| ApiChangeProperties.ApplyKindsPlan | colour/utilities/deprecation.py:353-361 | When no short name is a kind name: after the passes for any list of distinct kinds, the dictionary is the given one without those kinds' names and with their records assigned in order. Otherwise the passes raise, exactly when some item does not convert. |
| ApiChangeProperties.BuildFollowsPlan | colour/utilities/deprecation.py:353-363 | When no short name is a kind name, `build_API_changes` succeeds exactly when the plan exists. It then leaves the given dictionary without the six kind names and with the plan's records assigned in order. |
| ApiChangeProperties.PlannedRangeSplit | colour/utilities/deprecation.py:353-361 | The records planned for a range of kinds are those of its first part followed by those of its second part. |
| ApiChangeProperties.PlannedRangeOrigin | colour/utilities/deprecation.py:353-361 | Every planned record comes from a requested item of one of the range's kinds. |
| ApiChangeProperties.PlannedRangeSome | colour/utilities/deprecation.py:353-361 | The plan exists exactly when every requested item converts. |
| ApiChangeProperties.PlannedRangeKinds | colour/utilities/deprecation.py:353-361 | The records planned for a range of kinds are of those kinds. |
| ApiChangeProperties.BuildSucceedsIff | colour/utilities/deprecation.py:353-363 | When no short name is a kind name, `build_API_changes` raises exactly when some requested item is unusable for its kind. |
| ApiChangeProperties.BuildResult | colour/utilities/deprecation.py:353-363 | When no short name is a kind name, the resulting keys and values are these: no kind name remains. Other given keys pass through untouched unless a record takes their name. A short name holds the last record inserted under it. |
| ApiChangeProperties.LaterKindWins | colour/utilities/deprecation.py:353-361 | When no short name is a kind name: on a clash of short names, the record left is of the same kind or a later one in the processing order. |
| ApiChangeProperties.OneFieldKindsWin | colour/utilities/deprecation.py:358-361 | When no short name is a kind name, the one-field kinds are inserted last, so they win every clash with a two-field kind. |
| ApiChangeProperties.LastRequestWins | colour/utilities/deprecation.py:355-356 | When no short name is a kind name: within a kind, a later entry with the same short name overwrites an earlier one. The last entry's record is what remains unless a later kind uses the name. |
| ApiChangeProperties.KindRecordWins | colour/utilities/deprecation.py:353-361 | When no short name is a kind name, a record of one kind is what remains at its short name when no later record of that kind and no record of a later kind has that short name. |
| ApiChangeProperties.BuildOnlyRecords | colour/utilities/deprecation.py:353-363 | When no short name is a kind name, a dictionary holding only kind lists becomes one keyed exactly by its records' short names, with a record under every key. |
| ModuleApis.GetAttributeAsWritten | colour/utilities/deprecation.py:290-302 | As written, `get_attribute` on a name without `.` fails its assertion with the unformatted message. |
| ModuleApis.GetAttribute | colour/utilities/deprecation.py:290 | `get_attribute` fails its assertion exactly when the name holds no `.`. |
| ModuleApis.GetAttributeQualified | colour/utilities/deprecation.py:290-302 | `get_attribute('ns.attr')` reads the attribute after the last `.` from the module named by everything before it. If that module cannot be imported, it raises naming that module. |
| ModuleApis.GetAttr | colour/utilities/deprecation.py:237-248 | An access warns exactly when the name has a record that is not `ObjectRemoved`, and the warning is the record's message. Without a record, the access is a plain module lookup. With `ObjectRemoved`, it raises `AttributeError` carrying the message. With a rename or access change, it is `get_attribute` of the record's new name. |
| ModuleApis.GetAttrAsWritten | colour/utilities/deprecation.py:237-248 | The same warnings, lookups and errors as written: `ObjectFutureRemove` reads the module's own value, `ObjectFutureAccessRemove` raises `IndexError`, and the two-field kinds run the as-written `get_attribute` on the new name. |
| ModuleApis.UndottedNewNameFailsAssertion | colour/utilities/deprecation.py:241-244 | A rename or access change whose new name has no `.` warns, and then fails the assertion of `get_attribute` on that name. |
| ModuleApis.UnchangedModuleIsTransparent | colour/utilities/deprecation.py:213-215 | `ModuleAPI(module)` and `ModuleAPI(module, {})` hold no records. Every access is then a plain lookup with no warning, and `__dir__` lists every name of the module. |
| ModuleApis.FutureRemovalsStillRead | colour/utilities/deprecation.py:243-244 | In the corrected `__getattr__` (the corrected half of the Findings row for lines 243-244), a one-field record other than `ObjectRemoved` leaves the module's own value. As written, this holds for `ObjectFutureRemove` only: `ObjectFutureAccessRemove` raises `IndexError` (`ModuleApis.FutureAccessRemoveAsWritten`). |
| ModuleApis.RenamedResolvesNewName | colour/utilities/deprecation.py:243-244 | A rename or access change resolves `change[1]`: its attribute in the module its namespace names. |
| ModuleApis.WarningIdentifiesRecord | colour/utilities/deprecation.py:241 | When the record's fields hold no double quote, the emitted warning reads back as exactly the record behind it. |
| ModuleApis.DirNamesArePlain | colour/utilities/deprecation.py:237-266 | For a module whose `dir()` lists only attributes it has, every name `__dir__` lists is read straight from the module, with no warning, and gives the module's value. |
| ModuleApis.Dir | colour/utilities/deprecation.py:261-266 | `__dir__` lists exactly the module's names that have no record. |
| ModuleApis.WithoutMembers | colour/utilities/deprecation.py:261-264 | The filtered listing holds exactly the names that are not hidden. |
| ModuleApis.WithoutAppend | colour/utilities/deprecation.py:261-264 | The filter distributes over concatenation, so it keeps the listing's order. |
| ModuleApis.GetAttrVersionsAgree | colour/utilities/deprecation.py:237-248 | The as-written and corrected `__getattr__` agree on every record except `ObjectFutureAccessRemove`, provided that every two-field record's new name holds a `.`. With an undotted new name they differ only in the assertion message. |
| ModuleApis.GetAttributeVersionsDiffer | colour/utilities/deprecation.py:290 | The as-written and corrected `get_attribute` agree on dotted names. They differ only in the assertion message. |
| ModuleApis.FutureAccessRemoveAsWritten | colour/utilities/deprecation.py:243-244 | As written, an `ObjectFutureAccessRemove` record warns and then raises `IndexError`. Corrected, it warns and returns the module's value. |
| ModuleApis.NoNamespaceMessageAsWrittenIgnoresName | colour/utilities/deprecation.py:290 | The assertion message as written is the same for every name and does not name the attribute. |
| ModuleApis.NoNamespaceMessageNamesAttribute | colour/utilities/deprecation.py:290 | The corrected message determines the attribute it names. |

## Left out

- `import_module` and `sys.modules` are not run. The registry is a parameter: the modules
  already loaded, and those an import would find.
  - A successful import also adds the module to `sys.modules`. The model does not record
    that side effect.
  - `import_module` raises rather than return `None`, so the second assertion of
    `get_attribute` (line 298) cannot fire. It is not modelled.
- `usage_warning` is not called. The warning text is returned beside the outcome instead.
- Python's `dir()` sorts the names. The model takes the module's listing in the order given.
- Resolving through a module that is itself a `ModuleAPI` is not modelled. The modules a
  dotted name reaches are plain namespaces.
- `ModuleAPI`'s own attributes (`_module`, `_changes`, its methods) shadow module names,
  because Python only calls `__getattr__` after normal lookup fails. This is not modelled.
- The changes map of a `ModuleApi` holds records only. A non-record value there would go
  through Python's duck typing. `ApiChangeProperties.BuildOnlyRecords` shows that a table of
  kind lists yields records only.
- `changes or {}` replaces an empty dictionary by a fresh one. Values cannot tell the two
  apart, so the aliasing is not modelled.
- Asserts removed under `python -O` are not modelled. `get_attribute` then fails later, at
  the tuple unpacking.
- `ApiChanges.UnusableItem` keeps the item and its kind but not the exception class Python
  raises: `TypeError` from `change_type(*change)` for a two-field kind, `AttributeError` from
  `change.split` for a one-field kind.
- Python dictionaries keep insertion order: an overwritten key keeps its place and a new key
  goes last. A `map` has no order, so the order of the rewritten dictionary is not modelled.
  Nothing in the rewrite or in `ModuleAPI` reads that order.
- Only the item shapes `build_API_changes` uses are modelled: strings and lists of strings.
  Other iterables would go through Python's `*` unpacking.
- A record whose short name is the name of a kind not yet processed replaces that kind's list
  in the dictionary. The kind's pass then pops the record and iterates its fields, and the
  requests in the original list are lost. `ApiChanges.Build` and `ApiChanges.BuildApiChanges`
  model this case. `ApiChanges.CollisionLosesPendingList` and `ApiChanges.CollisionOutcome`
  prove it for one example. `ApiChanges.BuildErrorIsUnusable` holds in every case. The
  properties below require `NoCollision` (no short name equals a kind name), so they say
  nothing about such a dictionary:
- `ApiChangeProperties.ApplyKindsPlan` requires `NoCollision`.
- `ApiChangeProperties.BuildFollowsPlan` requires `NoCollision`.
- `ApiChangeProperties.BuildSucceedsIff` requires `NoCollision`. With a collision, an item the
  plan accepts can still raise, because a two-field kind may pop a record and iterate its fields.
- `ApiChangeProperties.BuildResult` requires `NoCollision`.
- `ApiChangeProperties.LaterKindWins` requires `NoCollision`.
- `ApiChangeProperties.OneFieldKindsWin` requires `NoCollision`.
- `ApiChangeProperties.LastRequestWins` requires `NoCollision`.
- `ApiChangeProperties.KindRecordWins` requires `NoCollision`.
- `ApiChangeProperties.BuildOnlyRecords` requires `NoCollision`.
- `ModuleApis.DirNamesArePlain` requires `Namespace.Valid`: every name `dir()` lists is an
  attribute of the module. For a name listed but missing, the plain lookup raises.
- `ModuleApis.GetAttrVersionsAgree` requires a `.` in every two-field record's new name. Without
  one, the two versions raise the assertion with different messages
  (`ModuleApis.UndottedNewNameFailsAssertion`).
- `ChangeRecords.DecodeMessage` and `ChangeRecords.MessageInjective` require fields without
  double quotes. With a quote inside a field, a message no longer determines its record.
- The doctest of `build_API_changes` (lines 322-350) is skipped in the source. Its input
  `module.object__2new_name` does not match its output `module.object_2_new_name`.

## Findings

| source | as written | input that shows it | evidently intended | confidence | as-written member | corrected member |
|---|---|---|---|---|---|---|
| colour/utilities/deprecation.py:243-244 | Every record other than `ObjectRemoved` and `ObjectFutureRemove` resolves `change[1]`. `ObjectFutureAccessRemove` has one field, so the access warns and then raises `IndexError`. | `ModuleAPI(m, {'x': ObjectFutureAccessRemove('m.x')}).x` | The access warns that it will be removed and still returns `getattr(module, 'x')`, as for `ObjectFutureRemove` | not executed | ModuleApis.FutureAccessRemoveAsWritten | ModuleApis.GetAttr |
| colour/utilities/deprecation.py:290 | The assertion message `'"{0}" attribute has no namespace!'` is never formatted. | `get_attribute('eotf_BT2020')` | `"eotf_BT2020" attribute has no namespace!` | not executed | ModuleApis.NoNamespaceMessageAsWrittenIgnoresName | ModuleApis.NoNamespaceMessageNamesAttribute |

=== FILE: assign.dfy ===
/**
  Assigning a sequence of key/value pairs into a dictionary one after the other, as
  `d[key] = value` in a loop does: which keys the result has, and which value each holds.
 */
module Assignments {

  /** `base` with `kvs` assigned in order, later pairs overwriting earlier ones. */
  function Assign<K, V>(base: map<K, V>, kvs: seq<(K, V)>): map<K, V>
  {
    if kvs == [] then base
    else Assign(base, kvs[..|kvs| - 1])[kvs[|kvs| - 1].0 := kvs[|kvs| - 1].1]
  }

  /** The keys `kvs` assigns. */
  function KeysOf<K, V>(kvs: seq<(K, V)>): set<K>
  {
    set i | 0 <= i < |kvs| :: kvs[i].0
  }

  /** The position of the last pair with key `x`, or -1 when there is none. */
  function LastAt<K(==), V>(kvs: seq<(K, V)>, x: K): (l: int)
    ensures -1 <= l < |kvs|
  {
    if kvs == [] then -1
    else if kvs[|kvs| - 1].0 == x then |kvs| - 1
    else LastAt(kvs[..|kvs| - 1], x)
  }

  lemma {:induction false} LastAtIsLast<K, V>(kvs: seq<(K, V)>, x: K)
    ensures LastAt(kvs, x) >= 0 ==> kvs[LastAt(kvs, x)].0 == x
    ensures forall j :: LastAt(kvs, x) < j < |kvs| ==> kvs[j].0 != x
  {
    if kvs != [] && kvs[|kvs| - 1].0 != x {
      var front := kvs[..|kvs| - 1];
      LastAtIsLast(front, x);
      assert forall j :: 0 <= j < |front| ==> front[j] == kvs[j];
    }
  }

  /** A key is assigned iff some pair has it, and then there is a last such pair. */
  lemma LastAtFound<K, V>(kvs: seq<(K, V)>, x: K)
    ensures LastAt(kvs, x) >= 0 <==> x in KeysOf(kvs)
  {
    LastAtIsLast(kvs, x);
    if x in KeysOf(kvs) {
      var i :| 0 <= i < |kvs| && kvs[i].0 == x;
    }
  }

  lemma KeysOfAppend<K, V>(p: seq<(K, V)>, q: seq<(K, V)>)
    ensures KeysOf(p + q) == KeysOf(p) + KeysOf(q)
  {
    forall y | y in KeysOf(p + q)
      ensures y in KeysOf(p) + KeysOf(q)
    {
      var i :| 0 <= i < |p + q| && (p + q)[i].0 == y;
      if i >= |p| {
        assert q[i - |p|].0 == y;
      }
    }
    forall y | y in KeysOf(p)
      ensures y in KeysOf(p + q)
    {
      var i :| 0 <= i < |p| && p[i].0 == y;
      assert (p + q)[i].0 == y;
    }
    forall y | y in KeysOf(q)
      ensures y in KeysOf(p + q)
    {
      var i :| 0 <= i < |q| && q[i].0 == y;
      assert (p + q)[|p| + i].0 == y;
    }
  }

  /** The keys after the assignments are the old keys and the assigned ones. */
  lemma {:induction false} AssignKeys<K, V>(base: map<K, V>, kvs: seq<(K, V)>)
    ensures Assign(base, kvs).Keys == base.Keys + KeysOf(kvs)
  {
    if kvs != [] {
      var n := |kvs|;
      AssignKeys(base, kvs[..n - 1]);
      assert kvs == kvs[..n - 1] + [kvs[n - 1]];
      KeysOfAppend(kvs[..n - 1], [kvs[n - 1]]);
      assert KeysOf([kvs[n - 1]]) == {kvs[n - 1].0};
    }
  }

  /** A key no pair assigns keeps its old value. */
  lemma {:induction false} AssignUntouched<K, V>(base: map<K, V>, kvs: seq<(K, V)>, x: K)
    requires x in base && x !in KeysOf(kvs)
    ensures x in Assign(base, kvs) && Assign(base, kvs)[x] == base[x]
  {
    if kvs != [] {
      var n := |kvs|;
      assert kvs[n - 1].0 in KeysOf(kvs);
      assert KeysOf(kvs[..n - 1]) <= KeysOf(kvs) by {
        forall y | y in KeysOf(kvs[..n - 1]) ensures y in KeysOf(kvs) {
          var i :| 0 <= i < n - 1 && kvs[..n - 1][i].0 == y;
          assert kvs[i].0 == y;
        }
      }
      AssignUntouched(base, kvs[..n - 1], x);
    }
  }

  /** An assigned key holds the value of the last pair with that key. */
  lemma {:induction false} AssignHoldsLast<K, V>(base: map<K, V>, kvs: seq<(K, V)>, x: K)
    requires LastAt(kvs, x) >= 0
    ensures x in Assign(base, kvs) && Assign(base, kvs)[x] == kvs[LastAt(kvs, x)].1
  {
    var n := |kvs|;
    if kvs[n - 1].0 != x {
      AssignHoldsLast(base, kvs[..n - 1], x);
    }
  }

  /** Assigning one more pair is assigning it after the others. */
  lemma AssignSnoc<K, V>(base: map<K, V>, kvs: seq<(K, V)>, kv: (K, V))
    ensures Assign(base, kvs + [kv]) == Assign(base, kvs)[kv.0 := kv.1]
  {
    assert (kvs + [kv])[..|kvs|] == kvs;
  }

  /** Assigning `p` and then `q` is assigning `p + q`. */
  lemma {:induction false} AssignAppend<K, V>(base: map<K, V>, p: seq<(K, V)>, q: seq<(K, V)>)
    ensures Assign(Assign(base, p), q) == Assign(base, p + q)
    decreases |q|
  {
    if q == [] {
      assert p + q == p;
    } else {
      var n := |q|;
      AssignAppend(base, p, q[..n - 1]);
      assert (p + q)[..|p + q| - 1] == p + q[..n - 1];
    }
  }

  /** Removing a key no pair assigns commutes with the assignments. */
  lemma {:induction false} AssignRemove<K, V>(base: map<K, V>, kvs: seq<(K, V)>, x: K)
    requires x !in KeysOf(kvs)
    ensures Assign(base, kvs) - {x} == Assign(base - {x}, kvs)
  {
    if kvs != [] {
      var n := |kvs|;
      assert kvs[n - 1].0 in KeysOf(kvs);
      AssignRemove(base, kvs[..n - 1], x);
    }
  }

  /** In `pre + mid + post`, the last pair with key `x` is `mid[j]` when no later pair of
      `mid` and no pair of `post` has that key. */
  lemma LastAtOfJoin<K, V>(pre: seq<(K, V)>, mid: seq<(K, V)>, post: seq<(K, V)>, j: nat, x: K)
    requires j < |mid| && mid[j].0 == x
    requires forall i :: j < i < |mid| ==> mid[i].0 != x
    requires LastAt(post, x) == -1
    ensures LastAt(pre + mid + post, x) == |pre| + j
  {
    var all := pre + mid + post;
    LastAtIsLast(post, x);
    forall q | |pre| + j < q < |all|
      ensures all[q].0 != x
    {
      if q < |pre| + |mid| {
        assert all[q] == mid[q - |pre|];
      } else {
        assert all[q] == post[q - |pre| - |mid|];
      }
    }
    assert all[|pre| + j] == mid[j];
    LastAtIsLast(all, x);
  }
}

=== FILE: build.dfy ===
/**
  `build_API_changes`: rewrites a dictionary keyed by record-kind name ("ObjectRenamed",
  ...) into one keyed by short object name, in place. Each kind's list is popped from
  the dictionary and every entry of it is stored as a record under the text after the
  last '.' of its first name; the two-field kinds go first, so on a clash of short names
  the one-field kinds win.
 */
module ApiChanges {
  import opened Wrappers
  import opened DottedNames
  import opened ChangeRecords

  /** An element of a requested-change list: a dotted name, or a list of dotted names
      (`[name, new_name]` for the two-field kinds). */
  datatype Item = Name(name: string) | NameList(names: seq<string>)

  /** A value of the dictionary: a list of requested changes, or a record. */
  datatype Entry = List(items: seq<Item>) | Record(change: Change)

  /** `for change in value`: a list yields its items; a record, being a named tuple,
      yields its fields, each a string. */
  function ItemsOf(e: Entry): seq<Item>
  {
    match e
    case List(items) => items
    case Record(c) => NamesOf(c.Fields())
  }

  /** Each of `fields` as a string item. */
  function NamesOf(fields: seq<string>): seq<Item>
  {
    if fields == [] then [] else NamesOf(fields[..|fields| - 1]) + [Name(fields[|fields| - 1])]
  }

  /** The record one item of kind `k`'s list becomes, `None` where Python raises.
      The right-hand side is evaluated first. Two-field kinds call `change_type(*change)`:
      a two-element list gives its two names, a two-character string its two characters,
      and anything else raises TypeError. One-field kinds call `change_type(change)`, which
      takes any value, and then `change.split`, on which a list raises AttributeError. */
  function Convert(k: Kind, item: Item): (r: Option<Change>)
    ensures r.Some? ==> r.value.Kind() == k
    ensures !TwoField(k) ==> (r.Some? <==> item.Name?)
    ensures !TwoField(k) && item.Name? ==> r.value.Fields() == [item.name]
    ensures TwoField(k) && item.NameList? ==> (r.Some? <==> |item.names| == 2)
    ensures TwoField(k) && item.NameList? && r.Some? ==> r.value.Fields() == item.names
    ensures TwoField(k) && item.Name? ==> (r.Some? <==> |item.name| == 2)
    ensures TwoField(k) && item.Name? && r.Some? ==> r.value.Fields() == [item.name[..1], item.name[1..]]
  {
    if TwoField(k) then
      match item
      case NameList(names) => if |names| == 2 then Some(Make(k, names)) else None
      case Name(s) => if |s| == 2 then Some(Make(k, [s[..1], s[1..]])) else None
    else
      match item
      case Name(s) => Some(Make(k, [s]))
      case NameList(_) => None
  }

  /** The key a record is stored under: `change[0].split('.')[-1]`. */
  function Key(c: Change): string
  {
    ShortName(c.Fields()[0])
  }

  /** A record is stored under the text after the last '.' of its first name, or under
      the whole name when it has no '.'. */
  lemma KeyOfDottedName(c: Change, namespace: string, attribute: string)
    requires '.' !in attribute
    ensures c.Fields()[0] == namespace + "." + attribute ==> Key(c) == attribute
    ensures '.' !in c.Fields()[0] ==> Key(c) == c.Fields()[0]
  {
    var name := c.Fields()[0];
    assert Key(c) == ShortName(name);
    ShortNameIsLastPart(name);
    if name == namespace + "." + attribute {
      ShortNameOfJoin(namespace, attribute);
    }
  }

  /** The item Python raises on, with the kind whose list held it. */
  datatype BuildError = UnusableItem(kind: Kind, item: Item)

  /** The dictionary after some of the rewrite, or as it stood when Python raised. */
  datatype State = Done(dict: map<string, Entry>) | Failed(dict: map<string, Entry>, error: BuildError)

  /** `changes[key] = change_type(...)` for one item. */
  function Insert(k: Kind, d: map<string, Entry>, item: Item): State
  {
    match Convert(k, item)
    case None => Failed(d, UnusableItem(k, item))
    case Some(c) => Done(d[Key(c) := Record(c)])
  }

  /** The inner loop: the items of one kind's list, inserted in order. */
  function InsertItems(k: Kind, d: map<string, Entry>, items: seq<Item>): State
  {
    if items == [] then Done(d)
    else
      match InsertItems(k, d, items[..|items| - 1])
      case Failed(d', e) => Failed(d', e)
      case Done(d') => Insert(k, d', items[|items| - 1])
  }

  /** `changes.pop(KindName(k), [])`, the value half. */
  function Popped(m: map<string, Entry>, k: Kind): Entry
  {
    if KindName(k) in m then m[KindName(k)] else List([])
  }

  /** One pass of an outer loop: pop kind `k`'s list, then insert its items. */
  function ApplyKind(k: Kind, m: map<string, Entry>): State
  {
    InsertItems(k, m - {KindName(k)}, ItemsOf(Popped(m, k)))
  }

  function ApplyKinds(ks: seq<Kind>, m: map<string, Entry>): State
  {
    if ks == [] then Done(m)
    else
      match ApplyKinds(ks[..|ks| - 1], m)
      case Failed(d, e) => Failed(d, e)
      case Done(d) => ApplyKind(ks[|ks| - 1], d)
  }

  /** The order of the two outer loops: the two-field kinds, then the one-field kinds. */
  const KindOrder: seq<Kind> := [Renamed, FutureRename, FutureAccessChange, Removed, FutureRemove, FutureAccessRemove]

  /** What `build_API_changes` leaves in the dictionary it is given. */
  function Build(m: map<string, Entry>): State
  {
    ApplyKinds(KindOrder, m)
  }

  /** The dictionary the rewrite works on, in place. */
  class ChangeDict {
    var entries: map<string, Entry>

    constructor (entries: map<string, Entry>)
      ensures this.entries == entries
    {
      this.entries := entries;
    }

    /** `dict.pop(key, [])`. */
    method Pop(key: string) returns (e: Entry)
      modifies this
      ensures e == (if key in old(entries) then old(entries)[key] else List([]))
      ensures entries == old(entries) - {key}
    {
      e := if key in entries then entries[key] else List([]);
      entries := entries - {key};
    }

    /** `dict[key] = e`. */
    method Set(key: string, e: Entry)
      modifies this
      ensures entries == old(entries)[key := e]
    {
      entries := entries[key := e];
    }
  }

  /** The inner loop of `build_API_changes` for kind `k`: inserts the popped items in order,
      stopping at the first one Python raises on. */
  method InsertRequested(changes: ChangeDict, k: Kind, items: seq<Item>) returns (err: Option<BuildError>)
    modifies changes
    ensures InsertItems(k, old(changes.entries), items)
         == if err.None? then Done(changes.entries) else Failed(changes.entries, err.value)
  {
    ghost var start := changes.entries;
    for j := 0 to |items|
      invariant InsertItems(k, start, items[..j]) == Done(changes.entries)
    {
      assert items[..j + 1][..j] == items[..j];
      match Convert(k, items[j]) {
        case None =>
          InsertItemsFailedStays(k, start, items, j + 1);
          return Some(UnusableItem(k, items[j]));
        case Some(c) =>
          changes.Set(Key(c), Record(c));
      }
    }
    assert items[..|items|] == items;
    return None;
  }

  /** `build_API_changes(changes)`: rewrites `changes` in place and returns that same
      dictionary; where Python raises, `changes` is left as it stood at that point. */
  method BuildApiChanges(changes: ChangeDict) returns (r: Result<ChangeDict, BuildError>)
    modifies changes
    ensures changes.entries == Build(old(changes.entries)).dict
    ensures r.Success? <==> Build(old(changes.entries)).Done?
    ensures r.Success? ==> r.value == changes
    ensures r.Failure? ==> r.error == Build(old(changes.entries)).error
  {
    ghost var m0 := changes.entries;
    for i := 0 to |KindOrder|
      invariant ApplyKinds(KindOrder[..i], m0) == Done(changes.entries)
    {
      var k := KindOrder[i];
      ApplyKindsNext(KindOrder, i, m0, changes.entries);
      var popped := changes.Pop(KindName(k));
      var err := InsertRequested(changes, k, ItemsOf(popped));
      if err.Some? {
        ApplyKindsFailedStays(KindOrder, i + 1, m0);
        return Failure(err.value);
      }
    }
    assert KindOrder[..|KindOrder|] == KindOrder;
    r := Success(changes);
  }

  /** One more kind runs one more pass on the dictionary the earlier kinds left. */
  lemma ApplyKindsNext(ks: seq<Kind>, i: nat, m: map<string, Entry>, d: map<string, Entry>)
    requires i < |ks| && ApplyKinds(ks[..i], m) == Done(d)
    ensures ApplyKinds(ks[..i + 1], m) == ApplyKind(ks[i], d)
  {
    assert ks[..i + 1][..i] == ks[..i];
  }

  /** An inner loop raises only on an item of its list that kind `k` cannot be made from. */
  lemma {:induction false} InsertItemsErrorUnusable(k: Kind, d: map<string, Entry>, items: seq<Item>)
    ensures InsertItems(k, d, items).Failed? ==>
              InsertItems(k, d, items).error.kind == k &&
              InsertItems(k, d, items).error.item in items &&
              Convert(k, InsertItems(k, d, items).error.item).None?
  {
    if items != [] {
      var front := items[..|items| - 1];
      InsertItemsErrorUnusable(k, d, front);
      assert forall x :: x in front ==> x in items;
    }
  }

  /** The passes raise only on an item that its list's kind cannot be made from. */
  lemma {:induction false} ApplyKindsErrorUnusable(ks: seq<Kind>, m: map<string, Entry>)
    ensures ApplyKinds(ks, m).Failed? ==>
              ApplyKinds(ks, m).error.kind in ks &&
              Convert(ApplyKinds(ks, m).error.kind, ApplyKinds(ks, m).error.item).None?
  {
    if ks != [] {
      var front := ks[..|ks| - 1];
      ApplyKindsErrorUnusable(front, m);
      assert forall x :: x in front ==> x in ks;
      match ApplyKinds(front, m)
      case Failed(_, _) =>
      case Done(d) =>
        var k := ks[|ks| - 1];
        InsertItemsErrorUnusable(k, d - {KindName(k)}, ItemsOf(Popped(d, k)));
    }
  }

  /** `build_API_changes` raises only on an item that its kind's record cannot be
      made from. */
  lemma BuildErrorIsUnusable(m: map<string, Entry>)
    ensures Build(m).Failed? ==> Convert(Build(m).error.kind, Build(m).error.item).None?
  {
    ApplyKindsErrorUnusable(KindOrder, m);
  }

  /** A record whose short name is a kind name not yet popped replaces that kind's
      list: the later pass iterates the record's fields instead, and the list's own
      requests are lost. Here the rename of `a.ObjectRemoved` is stored under
      "ObjectRemoved", so `p.q` is never recorded and `b` is recorded as removed. */
  lemma CollisionLosesPendingList()
    ensures var m := map["ObjectRenamed" := List([NameList(["a.ObjectRemoved", "b"])]),
                         "ObjectRemoved" := List([Name("p.q")])];
            Build(m).Done? && "q" !in Build(m).dict &&
            "b" in Build(m).dict && Build(m).dict["b"] == Record(ObjectRemoved("b"))
  {
    var m := map["ObjectRenamed" := List([NameList(["a.ObjectRemoved", "b"])]),
                 "ObjectRemoved" := List([Name("p.q")])];
    var rename := ObjectRenamed("a.ObjectRemoved", "b");
    CollisionKeys();
    CollisionOutcome(m, rename, "q");
  }

  lemma CollisionKeys()
    ensures Key(ObjectRenamed("a.ObjectRemoved", "b")) == KindName(Removed)
    ensures Key(ObjectRemoved("a.ObjectRemoved")) == KindName(Removed)
    ensures Key(ObjectRemoved("b")) == "b"
  {
    assert ShortName("a.ObjectRemoved") == "ObjectRemoved" by {
      assert "a" + "." + "ObjectRemoved" == "a.ObjectRemoved";
      ShortNameOfJoin("a", "ObjectRemoved");
    }
    assert ShortName("b") == "b" by {
      ShortNameIsLastPart("b");
    }
  }

  /** Whatever list `ObjectRemoved` held, a rename keyed "ObjectRemoved" takes its place:
      the rename's new name ends up removed, and no other name is recorded. */
  lemma CollisionOutcome(m: map<string, Entry>, rename: Change, other: string)
    requires rename.ObjectRenamed? && m.Keys == {KindName(Renamed), KindName(Removed)}
    requires m[KindName(Renamed)] == List([NameList(rename.Fields())])
    requires Key(rename) == KindName(Removed) && Key(ObjectRemoved(rename.name)) == KindName(Removed)
    requires Key(ObjectRemoved(rename.newName)) == rename.newName
    requires rename.newName != KindName(FutureRemove) && rename.newName != KindName(FutureAccessRemove)
    requires other != KindName(Removed) && other != rename.newName
    ensures Build(m).Done? && other !in Build(m).dict && rename.newName in Build(m).dict
    ensures Build(m).dict[rename.newName] == Record(ObjectRemoved(rename.newName))
    ensures Build(m).dict == map[KindName(Removed) := Record(ObjectRemoved(rename.name)),
                                 rename.newName := Record(ObjectRemoved(rename.newName))]
  {
    CollisionResult(m, rename);
  }

  /** The passes of the collision case, one at a time. */
  lemma CollisionResult(m: map<string, Entry>, rename: Change)
    requires rename.ObjectRenamed? && m.Keys == {KindName(Renamed), KindName(Removed)}
    requires m[KindName(Renamed)] == List([NameList(rename.Fields())])
    requires Key(rename) == KindName(Removed) && Key(ObjectRemoved(rename.name)) == KindName(Removed)
    requires Key(ObjectRemoved(rename.newName)) == rename.newName
    requires rename.newName != KindName(FutureRemove) && rename.newName != KindName(FutureAccessRemove)
    ensures Build(m) == Done(map[KindName(Removed) := Record(ObjectRemoved(rename.name)),
                                 rename.newName := Record(ObjectRemoved(rename.newName))])
  {
    var d1 := (m - {KindName(Renamed)})[KindName(Removed) := Record(rename)];
    var first, second := ObjectRemoved(rename.name), ObjectRemoved(rename.newName);
    var d2 := (d1 - {KindName(Removed)})[KindName(Removed) := Record(first)][rename.newName := Record(second)];
    assert ApplyKind(Renamed, m) == Done(d1) by {
      CollisionRenamePass(m, rename);
    }
    assert ApplyKind(Removed, d1) == Done(d2) by {
      CollisionRemovePass(d1, rename);
    }
    CollisionLeftovers(m, d1, d2, rename.newName);
    assert Build(m) == Done(d2) by {
      CollisionPasses(m, d1, d2);
    }
    assert d2 == map[KindName(Removed) := Record(first), rename.newName := Record(second)] by {
      assert d1.Keys == {KindName(Removed)};
      ReplacedOnlyKey(d1, KindName(Removed), Record(first), rename.newName, Record(second));
    }
  }

  /** Replacing the only key of a dictionary and adding one more leaves just those two. */
  lemma ReplacedOnlyKey<K, V>(d: map<K, V>, k: K, a: V, n: K, b: V)
    requires d.Keys == {k}
    ensures (d - {k})[k := a][n := b] == map[k := a, n := b]
  {
    assert d - {k} == map[];
  }

  /** After each of the two passes, only the kind names already popped are gone. */
  lemma CollisionLeftovers(m: map<string, Entry>, d1: map<string, Entry>, d2: map<string, Entry>, name: string)
    requires m.Keys == {KindName(Renamed), KindName(Removed)}
    requires d1.Keys == m.Keys - {KindName(Renamed)} + {KindName(Removed)}
    requires d2.Keys == d1.Keys - {KindName(Removed)} + {KindName(Removed), name}
    requires name != KindName(FutureRemove) && name != KindName(FutureAccessRemove)
    ensures KindName(FutureRename) !in d1 && KindName(FutureAccessChange) !in d1
    ensures KindName(FutureRemove) !in d2 && KindName(FutureAccessRemove) !in d2
  {
    assert d1.Keys == {KindName(Removed)};
    assert d2.Keys == {KindName(Removed), name};
  }

  /** The rename pass stores the record under its short name. */
  lemma CollisionRenamePass(m: map<string, Entry>, rename: Change)
    requires KindName(Renamed) in m && m[KindName(Renamed)] == List([NameList(rename.Fields())])
    requires rename.ObjectRenamed?
    ensures ApplyKind(Renamed, m) == Done((m - {KindName(Renamed)})[Key(rename) := Record(rename)])
  {
    var items := [NameList(rename.Fields())];
    var d0 := m - {KindName(Renamed)};
    assert ItemsOf(Popped(m, Renamed)) == items;
    assert Convert(Renamed, items[0]) == Some(rename);
    assert items[..0] == [];
    assert InsertItems(Renamed, d0, items[..0]) == Done(d0);
    assert InsertItems(Renamed, d0, items) == Insert(Renamed, d0, items[0]);
  }

  /** The remove pass finds a record where its list was and inserts the record's fields. */
  lemma CollisionRemovePass(d1: map<string, Entry>, rename: Change)
    requires rename.ObjectRenamed? && KindName(Removed) in d1 && d1[KindName(Removed)] == Record(rename)
    ensures ApplyKind(Removed, d1)
         == Done((d1 - {KindName(Removed)})[Key(ObjectRemoved(rename.name))  := Record(ObjectRemoved(rename.name))]
                                            [Key(ObjectRemoved(rename.newName)) := Record(ObjectRemoved(rename.newName))])
  {
    var items := [Name(rename.name), Name(rename.newName)];
    assert ItemsOf(Popped(d1, Removed)) == items by {
      NamesOfPair(rename.name, rename.newName);
    }
    InsertItemsPair(Removed, d1 - {KindName(Removed)}, items[0], items[1]);
  }

  lemma NamesOfPair(a: string, b: string)
    ensures NamesOf([a, b]) == [Name(a), Name(b)]
  {
    assert [a, b][..1] == [a];
    assert [a][..0] == [];
    assert NamesOf([a]) == NamesOf([]) + [Name(a)];
    assert NamesOf([a, b]) == NamesOf([a]) + [Name(b)];
  }

  /** The inner loop over a list of two items. */
  lemma InsertItemsPair(k: Kind, d: map<string, Entry>, x: Item, y: Item)
    ensures InsertItems(k, d, [x, y]) == match Insert(k, d, x)
                                         case Failed(d', e) => Failed(d', e)
                                         case Done(d') => Insert(k, d', y)
  {
    assert [x, y][..1] == [x];
    assert [x][..0] == [];
    assert InsertItems(k, d, [x]) == Insert(k, d, x);
  }

  lemma CollisionPasses(m: map<string, Entry>, d1: map<string, Entry>, d2: map<string, Entry>)
    requires ApplyKind(Renamed, m) == Done(d1) && ApplyKind(Removed, d1) == Done(d2)
    requires KindName(FutureRename) !in d1 && KindName(FutureAccessChange) !in d1
    requires KindName(FutureRemove) !in d2 && KindName(FutureAccessRemove) !in d2
    ensures Build(m) == Done(d2)
  {
    var ks := KindOrder;
    assert forall j :: 0 < j < 3 ==> KindName(ks[j]) !in d1 by {
      assert ks[1] == FutureRename && ks[2] == FutureAccessChange;
    }
    assert forall j :: 3 < j < 6 ==> KindName(ks[j]) !in d2 by {
      assert ks[4] == FutureRemove && ks[5] == FutureAccessRemove;
    }
    TwoActivePasses(ks, m, d1, d2, 0, 3);
  }

  /** Passes where only the kinds at positions `a` and `b` find a list. */
  lemma TwoActivePasses(ks: seq<Kind>, m: map<string, Entry>, d1: map<string, Entry>, d2: map<string, Entry>, a: nat, b: nat)
    requires a < b < |ks|
    requires forall j :: 0 <= j < a ==> KindName(ks[j]) !in m
    requires ApplyKind(ks[a], m) == Done(d1) && ApplyKind(ks[b], d1) == Done(d2)
    requires forall j :: a < j < b ==> KindName(ks[j]) !in d1
    requires forall j :: b < j < |ks| ==> KindName(ks[j]) !in d2
    ensures ApplyKinds(ks, m) == Done(d2)
  {
    assert ApplyKinds(ks[..a], m) == Done(m) by {
      assert ks[..0] == [];
      AbsentKindsUnchanged(ks, 0, a, m, m);
    }
    ActiveThenAbsent(ks, a, b, m, m, d1);
    ActiveThenAbsent(ks, b, |ks|, m, d1, d2);
    assert ks[..|ks|] == ks;
  }

  /** One pass that finds a list, then passes that find none. */
  lemma ActiveThenAbsent(ks: seq<Kind>, i: nat, hi: nat, m: map<string, Entry>, d: map<string, Entry>, d': map<string, Entry>)
    requires i < hi <= |ks| && ApplyKinds(ks[..i], m) == Done(d) && ApplyKind(ks[i], d) == Done(d')
    requires forall j :: i < j < hi ==> KindName(ks[j]) !in d'
    ensures ApplyKinds(ks[..hi], m) == Done(d')
  {
    ApplyKindsNext(ks, i, m, d);
    AbsentKindsUnchanged(ks, i + 1, hi, m, d');
  }

  /** Passes over kinds with no list in the dictionary leave it as it is. */
  lemma {:induction false} AbsentKindsUnchanged(ks: seq<Kind>, lo: nat, hi: nat, m: map<string, Entry>, d: map<string, Entry>)
    requires lo <= hi <= |ks| && ApplyKinds(ks[..lo], m) == Done(d)
    requires forall j :: lo <= j < hi ==> KindName(ks[j]) !in d
    ensures ApplyKinds(ks[..hi], m) == Done(d)
    decreases hi - lo
  {
    if lo < hi {
      ApplyKindsNext(ks, lo, m, d);
      AbsentKindUnchanged(ks[lo], d);
      AbsentKindsUnchanged(ks, lo + 1, hi, m, d);
    }
  }

  /** A kind with no list in the dictionary pops nothing and inserts nothing. */
  lemma AbsentKindUnchanged(k: Kind, d: map<string, Entry>)
    requires KindName(k) !in d
    ensures ApplyKind(k, d) == Done(d)
  {
    assert d - {KindName(k)} == d;
  }

  /** Once an inner loop has raised, the rest of the list changes nothing. */
  lemma {:induction false} InsertItemsFailedStays(k: Kind, d: map<string, Entry>, items: seq<Item>, n: nat)
    requires n <= |items| && InsertItems(k, d, items[..n]).Failed?
    ensures InsertItems(k, d, items) == InsertItems(k, d, items[..n])
    decreases |items| - n
  {
    if n < |items| {
      assert items[..n + 1][..n] == items[..n];
      InsertItemsFailedStays(k, d, items, n + 1);
    } else {
      assert items[..n] == items;
    }
  }

  /** Once a kind has raised, the remaining kinds change nothing. */
  lemma {:induction false} ApplyKindsFailedStays(ks: seq<Kind>, n: nat, m: map<string, Entry>)
    requires n <= |ks| && ApplyKinds(ks[..n], m).Failed?
    ensures ApplyKinds(ks, m) == ApplyKinds(ks[..n], m)
    decreases |ks| - n
  {
    if n < |ks| {
      assert ks[..n + 1][..n] == ks[..n];
      ApplyKindsFailedStays(ks, n + 1, m);
    } else {
      assert ks[..n] == ks;
    }
  }
}

=== FILE: build_properties.dfy ===
/**
  What `build_API_changes` promises about the dictionary it leaves: which keys it holds,
  which records they map to, which entries pass through untouched, and which record wins
  when several share a short name.
 */
module ApiChangeProperties {
  import opened Wrappers
  import opened ChangeRecords
  import opened ApiChanges
  import opened Assignments
  import opened Concatenation

  /** The six kind names, the keys the rewrite consumes. */
  function KindNames(): set<string>
  {
    Names(KindOrder)
  }

  /** The position of a kind in the processing order. */
  function Rank(k: Kind): nat
  {
    match k
    case Renamed => 0
    case FutureRename => 1
    case FutureAccessChange => 2
    case Removed => 3
    case FutureRemove => 4
    case FutureAccessRemove => 5
  }

  lemma RankIsPosition(k: Kind)
    ensures Rank(k) < |KindOrder| && KindOrder[Rank(k)] == k
    ensures TwoField(k) <==> Rank(k) < 3
  {
  }

  lemma RankOfPosition(t: nat)
    requires t < |KindOrder|
    ensures Rank(KindOrder[t]) == t
  {
  }

  /** The items of kind `k`'s list in the dictionary as given. */
  function Requested(m: map<string, Entry>, k: Kind): seq<Item>
  {
    ItemsOf(Popped(m, k))
  }

  /** The records a list of items becomes, one per item and in order; `None` if any item
      is one Python raises on. */
  function Converted(k: Kind, items: seq<Item>): Option<seq<Change>>
  {
    if items == [] then Some([])
    else
      match Converted(k, items[..|items| - 1])
      case None => None
      case Some(cs) =>
        match Convert(k, items[|items| - 1])
        case None => None
        case Some(c) => Some(cs + [c])
  }

  /** The conversion succeeds iff every item converts, and then gives each item's record
      at that item's position. */
  lemma {:induction false} ConvertedPointwise(k: Kind, items: seq<Item>)
    ensures Converted(k, items).Some? <==> forall i :: 0 <= i < |items| ==> Convert(k, items[i]).Some?
    ensures Converted(k, items).Some? ==> |Converted(k, items).value| == |items|
    ensures Converted(k, items).Some? ==>
              forall i :: 0 <= i < |items| ==> Converted(k, items).value[i] == Convert(k, items[i]).value
  {
    if items != [] {
      var n := |items|;
      var front := items[..n - 1];
      ConvertedPointwise(k, front);
      assert forall i :: 0 <= i < n - 1 ==> items[i] == front[i];
    }
  }

  /** The records the kind at position `t` of the processing order inserts. */
  function KindRecords(m: map<string, Entry>, t: nat): Option<seq<Change>>
    requires t < |KindOrder|
  {
    Converted(KindOrder[t], Requested(m, KindOrder[t]))
  }

  /** The records each kind inserts, in processing order. */
  function KindParts(m: map<string, Entry>): seq<Option<seq<Change>>>
  {
    Parts(m, KindOrder)
  }

  /** The records kinds `lo` to `hi - 1` (in processing order) insert, in insertion order. */
  function PlannedRange(m: map<string, Entry>, lo: nat, hi: nat): Option<seq<Change>>
    requires lo <= hi <= |KindOrder|
  {
    Concat(KindParts(m)[lo..hi])
  }

  /** Every record the rewrite inserts, in insertion order. */
  function Planned(m: map<string, Entry>): Option<seq<Change>>
  {
    PlannedRange(m, 0, |KindOrder|)
  }

  /** No inserted record is keyed by a kind name, so every pop finds the list as given. */
  ghost predicate NoCollision(m: map<string, Entry>)
  {
    forall k: Kind, i :: 0 <= i < |Requested(m, k)| && Convert(k, Requested(m, k)[i]).Some? ==>
      Key(Convert(k, Requested(m, k)[i]).value) !in KindNames()
  }

  // ----- Records as assignments -----

  /** The assignments a sequence of records makes: each record under its short name. */
  function Keyed(recs: seq<Change>): seq<(string, Entry)>
  {
    if recs == [] then []
    else Keyed(recs[..|recs| - 1]) + [(Key(recs[|recs| - 1]), Record(recs[|recs| - 1]))]
  }

  lemma {:induction false} KeyedPointwise(recs: seq<Change>)
    ensures |Keyed(recs)| == |recs|
    ensures forall i :: 0 <= i < |recs| ==> Keyed(recs)[i] == (Key(recs[i]), Record(recs[i]))
  {
    if recs != [] {
      var front := recs[..|recs| - 1];
      KeyedPointwise(front);
      assert forall i :: 0 <= i < |front| ==> front[i] == recs[i];
    }
  }

  lemma {:induction false} KeyedAppend(p: seq<Change>, q: seq<Change>)
    ensures Keyed(p + q) == Keyed(p) + Keyed(q)
    decreases |q|
  {
    if q == [] {
      assert p + q == p;
    } else {
      var n := |q|;
      KeyedAppend(p, q[..n - 1]);
      assert (p + q)[..|p + q| - 1] == p + q[..n - 1];
    }
  }

  /** The short names of a sequence of records. */
  function ShortNames(recs: seq<Change>): set<string>
  {
    KeysOf(Keyed(recs))
  }

  /** The position of the last record with short name `x`, or -1 when none has it. */
  function LastKeyed(recs: seq<Change>, x: string): (l: int)
    ensures -1 <= l < |recs|
  {
    KeyedPointwise(recs);
    LastAt(Keyed(recs), x)
  }

  lemma LastKeyedIsLast(recs: seq<Change>, x: string)
    ensures LastKeyed(recs, x) >= 0 <==> x in ShortNames(recs)
    ensures LastKeyed(recs, x) >= 0 ==> Key(recs[LastKeyed(recs, x)]) == x
    ensures forall j :: LastKeyed(recs, x) < j < |recs| ==> Key(recs[j]) != x
  {
    KeyedPointwise(recs);
    LastAtIsLast(Keyed(recs), x);
    LastAtFound(Keyed(recs), x);
    forall j | LastKeyed(recs, x) < j < |recs|
      ensures Key(recs[j]) != x
    {
      assert Keyed(recs)[j].0 == Key(recs[j]);
    }
  }

  /** In `pre + cs + post`, the last record keyed `x` is `cs[j]` when no later record of
      `cs` and no record of `post` is keyed `x`. */
  lemma LastKeyedOfJoin(pre: seq<Change>, cs: seq<Change>, post: seq<Change>, j: nat, x: string)
    requires j < |cs| && Key(cs[j]) == x
    requires forall i :: j < i < |cs| ==> Key(cs[i]) != x
    requires LastKeyed(post, x) == -1
    ensures LastKeyed(pre + cs + post, x) == |pre| + j
  {
    KeyedPointwise(pre);
    KeyedPointwise(cs);
    KeyedAppend(pre, cs);
    KeyedAppend(pre + cs, post);
    LastAtOfJoin(Keyed(pre), Keyed(cs), Keyed(post), j, x);
  }

  // ----- The rewrite against the plan -----

  /** The inner loop assigns exactly the converted records, or raises iff one item does
      not convert. */
  lemma {:induction false} InsertItemsAssign(k: Kind, d: map<string, Entry>, items: seq<Item>)
    ensures InsertItems(k, d, items).Done? <==> Converted(k, items).Some?
    ensures Converted(k, items).Some? ==> InsertItems(k, d, items).dict == Assign(d, Keyed(Converted(k, items).value))
  {
    if items != [] {
      var n := |items|;
      InsertItemsAssign(k, d, items[..n - 1]);
      var cs := Converted(k, items[..n - 1]);
      if cs.Some? && Convert(k, items[n - 1]).Some? {
        var c := Convert(k, items[n - 1]).value;
        KeyedSnoc(cs.value, c);
        AssignSnoc(d, Keyed(cs.value), (Key(c), Record(c)));
      }
    }
  }

  lemma KeyedSnoc(cs: seq<Change>, c: Change)
    ensures Keyed(cs + [c]) == Keyed(cs) + [(Key(c), Record(c))]
  {
    assert (cs + [c])[..|cs|] == cs;
  }

  /** The kind names of `ks`. */
  function Names(ks: seq<Kind>): set<string>
  {
    set k | k in ks :: KindName(k)
  }

  /** `ks` holds each kind at most once. */
  predicate DistinctKinds(ks: seq<Kind>)
  {
    forall i, j :: 0 <= i < j < |ks| ==> ks[i] != ks[j]
  }

  lemma KindOrderDistinct()
    ensures DistinctKinds(KindOrder)
  {
  }

  lemma EveryKindNamed(k: Kind)
    ensures KindName(k) in KindNames()
  {
    RankIsPosition(k);
  }

  /** The last kind of a list of distinct kinds adds a name the others do not have. */
  lemma NamesSplit(ks: seq<Kind>)
    requires ks != [] && DistinctKinds(ks)
    ensures Names(ks) == Names(ks[..|ks| - 1]) + {KindName(ks[|ks| - 1])}
    ensures KindName(ks[|ks| - 1]) !in Names(ks[..|ks| - 1])
  {
    var front, last := ks[..|ks| - 1], ks[|ks| - 1];
    assert ks == front + [last];
    forall k | k in front
      ensures KindName(k) != KindName(last)
    {
      var i :| 0 <= i < |front| && front[i] == k;
      assert ks[i] == k;
    }
  }

  /** The records each of `ks` inserts, in order. */
  function Parts(m: map<string, Entry>, ks: seq<Kind>): seq<Option<seq<Change>>>
  {
    seq(|ks|, t requires 0 <= t < |ks| => Converted(ks[t], Requested(m, ks[t])))
  }

  lemma PartsSplit(m: map<string, Entry>, ks: seq<Kind>)
    requires ks != []
    ensures Parts(m, ks) == Parts(m, ks[..|ks| - 1]) + [Converted(ks[|ks| - 1], Requested(m, ks[|ks| - 1]))]
  {
  }

  /** Under `NoCollision`, the records one kind's list becomes are keyed off the kind names. */
  lemma ConvertedKeys(m: map<string, Entry>, k: Kind)
    requires NoCollision(m) && Converted(k, Requested(m, k)).Some?
    ensures ShortNames(Converted(k, Requested(m, k)).value) !! KindNames()
  {
    var cs := Converted(k, Requested(m, k)).value;
    ConvertedPointwise(k, Requested(m, k));
    KeyedPointwise(cs);
    forall y | y in ShortNames(cs)
      ensures y !in KindNames()
    {
      var i :| 0 <= i < |cs| && Keyed(cs)[i].0 == y;
    }
  }

  /** One pass of the outer loop on a dictionary whose assignments avoid the popped kind
      name: the pass removes that name and appends the kind's records to the assignments. */
  lemma ApplyKindOnAssign(k: Kind, base: map<string, Entry>, kvs: seq<(string, Entry)>)
    requires KindName(k) !in KeysOf(kvs)
    ensures ApplyKind(k, Assign(base, kvs)).Done? <==> Converted(k, ItemsOf(Popped(base, k))).Some?
    ensures Converted(k, ItemsOf(Popped(base, k))).Some? ==>
              ApplyKind(k, Assign(base, kvs)).dict
                == Assign(base - {KindName(k)}, kvs + Keyed(Converted(k, ItemsOf(Popped(base, k))).value))
  {
    var name := KindName(k);
    var d := Assign(base, kvs);
    AssignKeys(base, kvs);
    if name in base {
      AssignUntouched(base, kvs, name);
    }
    assert Popped(d, k) == Popped(base, k);
    AssignRemove(base, kvs, name);
    InsertItemsAssign(k, d - {name}, ItemsOf(Popped(base, k)));
    var cs := Converted(k, ItemsOf(Popped(base, k)));
    if cs.Some? {
      AssignAppend(base - {name}, kvs, Keyed(cs.value));
    }
  }

  /** Running the passes for distinct kinds `ks` leaves the given dictionary without
      their names, with their records assigned in order, or raises iff some item does not
      convert. */
  lemma {:induction false} ApplyKindsPlan(m: map<string, Entry>, ks: seq<Kind>)
    requires NoCollision(m) && DistinctKinds(ks)
    ensures ApplyKinds(ks, m).Done? <==> Concat(Parts(m, ks)).Some?
    ensures Concat(Parts(m, ks)).Some? ==>
              ApplyKinds(ks, m).dict == Assign(m - Names(ks), Keyed(Concat(Parts(m, ks)).value))
    ensures Concat(Parts(m, ks)).Some? ==> ShortNames(Concat(Parts(m, ks)).value) !! KindNames()
  {
    if ks == [] {
      assert Names(ks) == {};
      assert m - {} == m;
      assert Parts(m, ks) == [];
    } else {
      var front, k := ks[..|ks| - 1], ks[|ks| - 1];
      assert DistinctKinds(front) by {
        assert forall i :: 0 <= i < |front| ==> front[i] == ks[i];
      }
      ApplyKindsPlan(m, front);
      PartsSplit(m, ks);
      ConcatAppend(Parts(m, front), [Converted(k, Requested(m, k))]);
      if Concat(Parts(m, front)).Some? {
        ApplyKindsPlanStep(m, ks, Concat(Parts(m, front)).value);
      }
    }
  }

  /** The pass for the last of `ks`, once the earlier ones have gone to plan. */
  lemma ApplyKindsPlanStep(m: map<string, Entry>, ks: seq<Kind>, p: seq<Change>)
    requires NoCollision(m) && ks != [] && DistinctKinds(ks)
    requires Concat(Parts(m, ks[..|ks| - 1])) == Some(p) && ShortNames(p) !! KindNames()
    requires ApplyKinds(ks[..|ks| - 1], m) == Done(Assign(m - Names(ks[..|ks| - 1]), Keyed(p)))
    ensures ApplyKinds(ks, m).Done? <==> Concat(Parts(m, ks)).Some?
    ensures Concat(Parts(m, ks)).Some? ==>
              ApplyKinds(ks, m).dict == Assign(m - Names(ks), Keyed(Concat(Parts(m, ks)).value))
    ensures Concat(Parts(m, ks)).Some? ==> ShortNames(Concat(Parts(m, ks)).value) !! KindNames()
  {
    var front, k := ks[..|ks| - 1], ks[|ks| - 1];
    var cs := Converted(k, Requested(m, k));
    var base := m - Names(front);
    PartsLast(m, ks, p);
    NamesLast(m, ks);
    assert ApplyKinds(ks, m) == ApplyKind(k, Assign(base, Keyed(p)));
    EveryKindNamed(k);
    assert Popped(base, k) == Popped(m, k);
    ApplyKindOnAssign(k, base, Keyed(p));
    if cs.Some? {
      ConvertedKeys(m, k);
      KeyedAppend(p, cs.value);
      KeysOfAppend(Keyed(p), Keyed(cs.value));
    }
  }

  /** The plan for `ks` is the plan for all but its last kind, then that kind's records. */
  lemma PartsLast(m: map<string, Entry>, ks: seq<Kind>, p: seq<Change>)
    requires ks != [] && Concat(Parts(m, ks[..|ks| - 1])) == Some(p)
    ensures Concat(Parts(m, ks)).Some? <==> Converted(ks[|ks| - 1], Requested(m, ks[|ks| - 1])).Some?
    ensures Concat(Parts(m, ks)).Some? ==>
              Concat(Parts(m, ks)).value == p + Converted(ks[|ks| - 1], Requested(m, ks[|ks| - 1])).value
  {
    var k := ks[|ks| - 1];
    PartsSplit(m, ks);
    ConcatAppend(Parts(m, ks[..|ks| - 1]), [Converted(k, Requested(m, k))]);
    ConcatOne(Converted(k, Requested(m, k)));
  }

  /** Removing the names of all but the last kind and then the last one's name removes the
      names of `ks`; the last kind's name is not among the others. */
  lemma NamesLast(m: map<string, Entry>, ks: seq<Kind>)
    requires ks != [] && DistinctKinds(ks)
    ensures KindName(ks[|ks| - 1]) !in Names(ks[..|ks| - 1])
    ensures (m - Names(ks[..|ks| - 1])) - {KindName(ks[|ks| - 1])} == m - Names(ks)
  {
    NamesSplit(ks);
  }

  /** `build_API_changes` leaves the given dictionary without the kind names, with every
      planned record assigned in order, or raises iff some item does not convert. */
  lemma BuildFollowsPlan(m: map<string, Entry>)
    requires NoCollision(m)
    ensures Build(m).Done? <==> Planned(m).Some?
    ensures Planned(m).Some? ==> Build(m).dict == Assign(m - KindNames(), Keyed(Planned(m).value))
    ensures Planned(m).Some? ==> ShortNames(Planned(m).value) !! KindNames()
  {
    KindOrderDistinct();
    ApplyKindsPlan(m, KindOrder);
    assert KindParts(m)[0..|KindOrder|] == KindParts(m);
  }

  // ----- The plan -----

  lemma PlannedRangeSplit(m: map<string, Entry>, lo: nat, mid: nat, hi: nat)
    requires lo <= mid <= hi <= |KindOrder|
    ensures PlannedRange(m, lo, hi).Some? <==> PlannedRange(m, lo, mid).Some? && PlannedRange(m, mid, hi).Some?
    ensures PlannedRange(m, lo, hi).Some? ==>
              PlannedRange(m, lo, hi).value == PlannedRange(m, lo, mid).value + PlannedRange(m, mid, hi).value
  {
    var parts := KindParts(m);
    assert parts[lo..hi] == parts[lo..mid] + parts[mid..hi];
    ConcatAppend(parts[lo..mid], parts[mid..hi]);
  }

  /** The plan for one kind is that kind's records. */
  lemma PlannedRangeOne(m: map<string, Entry>, t: nat)
    requires t < |KindOrder|
    ensures PlannedRange(m, t, t + 1) == KindRecords(m, t)
  {
    assert KindParts(m)[t..t + 1] == [KindRecords(m, t)];
    ConcatOne(KindRecords(m, t));
  }

  /** Every record of the plan for kinds `lo` to `hi - 1` comes from an item of one of them. */
  lemma PlannedRangeOrigin(m: map<string, Entry>, lo: nat, hi: nat, q: nat)
    requires lo <= hi <= |KindOrder|
    requires PlannedRange(m, lo, hi).Some? && q < |PlannedRange(m, lo, hi).value|
    ensures exists t, i :: lo <= t < hi && 0 <= i < |Requested(m, KindOrder[t])| &&
              Convert(KindOrder[t], Requested(m, KindOrder[t])[i]) == Some(PlannedRange(m, lo, hi).value[q])
  {
    var parts := KindParts(m)[lo..hi];
    ConcatOrigin(parts, q);
    var u, i :| 0 <= u < |parts| && parts[u].Some? && 0 <= i < |parts[u].value| &&
                Concat(parts).value[q] == parts[u].value[i];
    var t := lo + u;
    assert parts[u] == KindParts(m)[t] == KindRecords(m, t);
    KindRecordOrigin(m, t, i);
  }

  /** Item `i` of the list of the kind at position `t`, when it converts, becomes record
      `i` of that kind. */
  lemma KindRecordAt(m: map<string, Entry>, t: nat, i: nat)
    requires t < |KindOrder| && KindRecords(m, t).Some? && i < |Requested(m, KindOrder[t])|
    ensures i < |KindRecords(m, t).value|
    ensures Convert(KindOrder[t], Requested(m, KindOrder[t])[i]) == Some(KindRecords(m, t).value[i])
  {
    ConvertedPointwise(KindOrder[t], Requested(m, KindOrder[t]));
  }

  lemma JoinIndex<T>(pre: seq<T>, mid: seq<T>, post: seq<T>, j: nat)
    requires j < |mid|
    ensures (pre + mid + post)[|pre| + j] == mid[j]
  {
  }

  /** Record `i` of the kind at position `t` is what item `i` of that kind's list becomes. */
  lemma KindRecordOrigin(m: map<string, Entry>, t: nat, i: nat)
    requires t < |KindOrder| && KindRecords(m, t).Some? && i < |KindRecords(m, t).value|
    ensures i < |Requested(m, KindOrder[t])|
    ensures Convert(KindOrder[t], Requested(m, KindOrder[t])[i]) == Some(KindRecords(m, t).value[i])
  {
    ConvertedPointwise(KindOrder[t], Requested(m, KindOrder[t]));
  }

  /** The records of the plan for kinds `lo` to `hi - 1` are of those kinds. */
  lemma PlannedRangeKinds(m: map<string, Entry>, lo: nat, hi: nat, q: nat)
    requires lo <= hi <= |KindOrder|
    requires PlannedRange(m, lo, hi).Some? && q < |PlannedRange(m, lo, hi).value|
    ensures lo <= Rank(PlannedRange(m, lo, hi).value[q].Kind()) < hi
  {
    PlannedRangeOrigin(m, lo, hi, q);
    var t, i :| lo <= t < hi && 0 <= i < |Requested(m, KindOrder[t])| &&
                Convert(KindOrder[t], Requested(m, KindOrder[t])[i]) == Some(PlannedRange(m, lo, hi).value[q]);
    RankOfPosition(t);
  }

  /** The plan holds a record iff every requested item converts. */
  lemma PlannedRangeSome(m: map<string, Entry>, lo: nat, hi: nat)
    requires lo <= hi <= |KindOrder|
    ensures PlannedRange(m, lo, hi).Some? <==>
              forall t, i :: lo <= t < hi && 0 <= i < |Requested(m, KindOrder[t])| ==>
                Convert(KindOrder[t], Requested(m, KindOrder[t])[i]).Some?
  {
    var parts := KindParts(m)[lo..hi];
    ConcatSome(parts);
    forall t | lo <= t < hi
      ensures parts[t - lo] == KindRecords(m, t)
      ensures KindRecords(m, t).Some? <==>
                forall i :: 0 <= i < |Requested(m, KindOrder[t])| ==> Convert(KindOrder[t], Requested(m, KindOrder[t])[i]).Some?
    {
      ConvertedPointwise(KindOrder[t], Requested(m, KindOrder[t]));
    }
  }

  // ----- What the caller sees -----

  /** Provided no short name collides with a kind name, `build_API_changes` raises exactly
      when some requested item is not usable for its kind. */
  lemma BuildSucceedsIff(m: map<string, Entry>)
    requires NoCollision(m)
    ensures Build(m).Done? <==>
              forall k: Kind, i :: 0 <= i < |Requested(m, k)| ==> Convert(k, Requested(m, k)[i]).Some?
  {
    BuildFollowsPlan(m);
    PlannedRangeSome(m, 0, |KindOrder|);
    if forall t, i :: 0 <= t < |KindOrder| && 0 <= i < |Requested(m, KindOrder[t])| ==>
                        Convert(KindOrder[t], Requested(m, KindOrder[t])[i]).Some? {
      forall k: Kind, i | 0 <= i < |Requested(m, k)|
        ensures Convert(k, Requested(m, k)[i]).Some?
      {
        RankIsPosition(k);
        var t := Rank(k);
        assert 0 <= i < |Requested(m, KindOrder[t])|;
      }
    }
  }

  /** The keys and values of the rewritten dictionary: no kind name remains; the other
      given keys pass through untouched unless a record takes their name; each record's
      short name holds the last record inserted under it. */
  lemma BuildResult(m: map<string, Entry>, x: string)
    requires NoCollision(m) && Planned(m).Some?
    ensures Build(m).Done?
    ensures x in KindNames() ==> x !in Build(m).dict
    ensures x in Build(m).dict <==> (x in m && x !in KindNames()) || x in ShortNames(Planned(m).value)
    ensures x in m && x !in KindNames() && x !in ShortNames(Planned(m).value) ==> Build(m).dict[x] == m[x]
    ensures x in ShortNames(Planned(m).value) ==>
              LastKeyed(Planned(m).value, x) >= 0 && Build(m).dict[x] == Record(Planned(m).value[LastKeyed(Planned(m).value, x)])
  {
    var p := Planned(m).value;
    var base := m - KindNames();
    BuildFollowsPlan(m);
    AssignKeys(base, Keyed(p));
    if x in base && x !in ShortNames(p) {
      AssignUntouched(base, Keyed(p), x);
    }
    LastKeyedIsLast(p, x);
    if x in ShortNames(p) {
      BuildHoldsLast(m, x);
    }
  }

  /** The plan is the records of the kinds before position `t`, then those of kind `t`,
      then those of the kinds after it. */
  lemma PlanAt(m: map<string, Entry>, t: nat)
    requires Planned(m).Some? && t < |KindOrder|
    ensures PlannedRange(m, 0, t).Some? && PlannedRange(m, t + 1, |KindOrder|).Some?
    ensures KindRecords(m, t).Some?
    ensures Planned(m).value == PlannedRange(m, 0, t).value + KindRecords(m, t).value
                                + PlannedRange(m, t + 1, |KindOrder|).value
  {
    PlannedRangeSplit(m, 0, t, |KindOrder|);
    PlannedRangeSplit(m, t, t + 1, |KindOrder|);
    PlannedRangeOne(m, t);
    var pre, cs, post := PlannedRange(m, 0, t).value, KindRecords(m, t).value, PlannedRange(m, t + 1, |KindOrder|).value;
    assert pre + (cs + post) == pre + cs + post;
  }

  /** The record the rewrite leaves at a short name used by the plan is the plan's last
      record under that name. */
  lemma BuildHoldsLast(m: map<string, Entry>, x: string)
    requires NoCollision(m) && Planned(m).Some? && LastKeyed(Planned(m).value, x) >= 0
    ensures Build(m).Done? && x in Build(m).dict
    ensures Build(m).dict[x] == Record(Planned(m).value[LastKeyed(Planned(m).value, x)])
  {
    var p := Planned(m).value;
    BuildFollowsPlan(m);
    AssignHoldsLast(m - KindNames(), Keyed(p), x);
    KeyedPointwise(p);
  }

  /** Every record from position `|PlannedRange(m, 0, t)|` of the plan on is of the kind at
      position `t` or a later one. */
  lemma PlanTailKinds(m: map<string, Entry>, t: nat, q: nat)
    requires Planned(m).Some? && t < |KindOrder|
    requires PlannedRange(m, 0, t).Some? && |PlannedRange(m, 0, t).value| <= q < |Planned(m).value|
    ensures Rank(Planned(m).value[q].Kind()) >= t
  {
    PlannedRangeSplit(m, 0, t, |KindOrder|);
    var pre, post := PlannedRange(m, 0, t).value, PlannedRange(m, t, |KindOrder|).value;
    assert Planned(m).value[q] == post[q - |pre|];
    PlannedRangeKinds(m, t, |KindOrder|, q - |pre|);
  }

  /** A record of a later kind beats every record of an earlier kind under the same short
      name: if an item of the kind at position `t` becomes record `c`, the record left at
      `c`'s short name is of that kind or a later one. */
  lemma LaterKindWins(m: map<string, Entry>, t: nat, i: nat, c: Change)
    requires NoCollision(m) && Planned(m).Some?
    requires t < |KindOrder| && i < |Requested(m, KindOrder[t])|
    requires Convert(KindOrder[t], Requested(m, KindOrder[t])[i]) == Some(c)
    ensures Key(c) in Build(m).dict && Build(m).dict[Key(c)].Record?
    ensures Rank(Build(m).dict[Key(c)].change.Kind()) >= t
  {
    var x := Key(c);
    var p := Planned(m).value;
    PlanAt(m, t);
    var pre := PlannedRange(m, 0, t).value;
    var cs := KindRecords(m, t).value;
    var post := PlannedRange(m, t + 1, |KindOrder|).value;
    KindRecordAt(m, t, i);
    var at := |pre| + i;
    JoinIndex(pre, cs, post, i);
    LastKeyedIsLast(p, x);
    var l := LastKeyed(p, x);
    assert at <= l;
    BuildHoldsLast(m, x);
    PlanTailKinds(m, t, l);
  }

  /** The one-field kinds are inserted last, so they win every clash of short names with a
      two-field kind. */
  lemma OneFieldKindsWin(m: map<string, Entry>, k: Kind, i: nat, c: Change)
    requires NoCollision(m) && Planned(m).Some?
    requires !TwoField(k) && i < |Requested(m, k)| && Convert(k, Requested(m, k)[i]) == Some(c)
    ensures Key(c) in Build(m).dict && Build(m).dict[Key(c)].Record?
    ensures !TwoField(Build(m).dict[Key(c)].change.Kind())
  {
    RankIsPosition(k);
    LaterKindWins(m, Rank(k), i, c);
    RankIsPosition(Build(m).dict[Key(c)].change.Kind());
  }

  /** When no item of a kind after position `t` converts to a record keyed `x`, no record
      of the plan after kind `t` is keyed `x`. */
  lemma PlanAfterAvoids(m: map<string, Entry>, t: nat, x: string)
    requires t < |KindOrder| && PlannedRange(m, t + 1, |KindOrder|).Some?
    requires forall t', i :: (t < t' < |KindOrder| && 0 <= i < |Requested(m, KindOrder[t'])| &&
               Convert(KindOrder[t'], Requested(m, KindOrder[t'])[i]).Some?) ==>
                 Key(Convert(KindOrder[t'], Requested(m, KindOrder[t'])[i]).value) != x
    ensures LastKeyed(PlannedRange(m, t + 1, |KindOrder|).value, x) == -1
  {
    var post := PlannedRange(m, t + 1, |KindOrder|).value;
    LastKeyedIsLast(post, x);
    if LastKeyed(post, x) >= 0 {
      PlannedRangeOrigin(m, t + 1, |KindOrder|, LastKeyed(post, x));
    }
  }

  /** Within a kind a later entry overwrites an earlier one: the record left at a short name
      is the one from the last item of that kind with that short name, provided no later
      kind uses it. */
  lemma LastRequestWins(m: map<string, Entry>, t: nat, j: nat, c: Change)
    requires NoCollision(m) && Planned(m).Some?
    requires t < |KindOrder| && j < |Requested(m, KindOrder[t])|
    requires Convert(KindOrder[t], Requested(m, KindOrder[t])[j]) == Some(c)
    requires forall i :: j < i < |Requested(m, KindOrder[t])| && Convert(KindOrder[t], Requested(m, KindOrder[t])[i]).Some? ==>
               Key(Convert(KindOrder[t], Requested(m, KindOrder[t])[i]).value) != Key(c)
    requires forall t', i :: (t < t' < |KindOrder| && 0 <= i < |Requested(m, KindOrder[t'])| &&
               Convert(KindOrder[t'], Requested(m, KindOrder[t'])[i]).Some?) ==>
                 Key(Convert(KindOrder[t'], Requested(m, KindOrder[t'])[i]).value) != Key(c)
    ensures Key(c) in Build(m).dict && Build(m).dict[Key(c)] == Record(c)
  {
    var k := KindOrder[t];
    var x := Key(c);
    ConvertedPointwise(k, Requested(m, k));
    PlanAt(m, t);
    PlanAfterAvoids(m, t, x);
    var cs := KindRecords(m, t).value;
    assert cs[j] == c;
    forall i | j < i < |cs|
      ensures Key(cs[i]) != x
    {
    }
    KindRecordWins(m, t, j, x);
  }

  /** A record of the kind at position `t` is what the rewrite leaves at its short name `x`
      when no later record of that kind and no record of a later kind is keyed `x`. */
  lemma KindRecordWins(m: map<string, Entry>, t: nat, j: nat, x: string)
    requires NoCollision(m) && Planned(m).Some? && t < |KindOrder|
    requires KindRecords(m, t).Some? && j < |KindRecords(m, t).value| && Key(KindRecords(m, t).value[j]) == x
    requires forall i :: j < i < |KindRecords(m, t).value| ==> Key(KindRecords(m, t).value[i]) != x
    requires PlannedRange(m, t + 1, |KindOrder|).Some? && LastKeyed(PlannedRange(m, t + 1, |KindOrder|).value, x) == -1
    ensures x in Build(m).dict && Build(m).dict[x] == Record(KindRecords(m, t).value[j])
  {
    PlanAt(m, t);
    var pre := PlannedRange(m, 0, t).value;
    var cs := KindRecords(m, t).value;
    var post := PlannedRange(m, t + 1, |KindOrder|).value;
    LastKeyedOfJoin(pre, cs, post, j, x);
    JoinIndex(pre, cs, post, j);
    BuildHoldsLast(m, x);
  }

  /** A dictionary holding only kind-name lists, such as a package's table of API changes,
      becomes one keyed exactly by the short names of its records, each holding a record. */
  lemma BuildOnlyRecords(m: map<string, Entry>)
    requires NoCollision(m) && Planned(m).Some? && m.Keys <= KindNames()
    ensures Build(m).Done?
    ensures Build(m).dict.Keys == ShortNames(Planned(m).value)
    ensures forall x :: x in Build(m).dict ==> Build(m).dict[x].Record?
  {
    var p := Planned(m).value;
    BuildFollowsPlan(m);
    forall x | x in Build(m).dict || x in ShortNames(p)
      ensures x in Build(m).dict && x in ShortNames(p) && Build(m).dict[x].Record?
    {
      BuildResult(m, x);
    }
  }
}

=== FILE: changes.dfy ===
/**
  The six API change records of the deprecation utilities and the messages their
  `__str__` methods format.
 */
module ChangeRecords {
  import opened Wrappers
  import opened MessageTexts

  /** The six record classes, as values; `KindName` is each class's `__name__`. */
  datatype Kind =
    | Renamed
    | Removed
    | FutureRename
    | FutureRemove
    | FutureAccessChange
    | FutureAccessRemove

  function KindName(k: Kind): string
  {
    match k
    case Renamed => "ObjectRenamed"
    case Removed => "ObjectRemoved"
    case FutureRename => "ObjectFutureRename"
    case FutureRemove => "ObjectFutureRemove"
    case FutureAccessChange => "ObjectFutureAccessChange"
    case FutureAccessRemove => "ObjectFutureAccessRemove"
  }

  /** The kinds whose named tuple has two fields (an old and a new name). */
  predicate TwoField(k: Kind)
  {
    k.Renamed? || k.FutureRename? || k.FutureAccessChange?
  }

  /** Every kind, in the order of the module's `__all__`. */
  const AllKinds: seq<Kind> := [Renamed, Removed, FutureRename, FutureRemove, FutureAccessChange, FutureAccessRemove]

  function Arity(k: Kind): nat
  {
    if TwoField(k) then 2 else 1
  }

  /** One API change record: a named tuple of one or two dotted names. */
  datatype Change =
    | ObjectRenamed(name: string, newName: string)
    | ObjectRemoved(name: string)
    | ObjectFutureRename(name: string, newName: string)
    | ObjectFutureRemove(name: string)
    | ObjectFutureAccessChange(access: string, newAccess: string)
    | ObjectFutureAccessRemove(name: string)
  {
    function Kind(): Kind
    {
      match this
      case ObjectRenamed(_, _) => Renamed
      case ObjectRemoved(_) => Removed
      case ObjectFutureRename(_, _) => FutureRename
      case ObjectFutureRemove(_) => FutureRemove
      case ObjectFutureAccessChange(_, _) => FutureAccessChange
      case ObjectFutureAccessRemove(_) => FutureAccessRemove
    }

    /** The tuple's fields in order: `change[0]`, and `change[1]` for the two-field kinds. */
    function Fields(): (r: seq<string>)
      ensures |r| == Arity(Kind())
    {
      match this
      case ObjectRenamed(n, m) => [n, m]
      case ObjectRemoved(n) => [n]
      case ObjectFutureRename(n, m) => [n, m]
      case ObjectFutureRemove(n) => [n]
      case ObjectFutureAccessChange(a, b) => [a, b]
      case ObjectFutureAccessRemove(n) => [n]
    }
  }

  /** `change_type(*fields)`: the record of kind `k` holding `fields`. */
  function Make(k: Kind, fields: seq<string>): (c: Change)
    requires |fields| == Arity(k)
    ensures c.Kind() == k
    ensures c.Fields() == fields
  {
    match k
    case Renamed => ObjectRenamed(fields[0], fields[1])
    case Removed => ObjectRemoved(fields[0])
    case FutureRename => ObjectFutureRename(fields[0], fields[1])
    case FutureRemove => ObjectFutureRemove(fields[0])
    case FutureAccessChange => ObjectFutureAccessChange(fields[0], fields[1])
    case FutureAccessRemove => ObjectFutureAccessRemove(fields[0])
  }

  /** `"{0}"` in a message template: a field wrapped in double quotes. */
  function Quote(field: string): string
  {
    "\"" + field + "\""
  }

  /** `template.format(*fields)` for a template whose placeholders each stand between
      double quotes: `texts` are the literal parts around the placeholders. */
  function Render(texts: seq<string>, fields: seq<string>): string
    requires |texts| == |fields| + 1
    decreases |fields|
  {
    if fields == [] then texts[0]
    else Render(texts[..|texts| - 1], fields[..|fields| - 1])
         + Quote(fields[|fields| - 1]) + texts[|texts| - 1]
  }

  /** The literal text of each kind's `__str__` template, around its quoted placeholders. */
  function Template(k: Kind): (t: seq<string>)
    ensures |t| == Arity(k) + 1
  {
    match k
    case Renamed => ["", RenamedText, RenamedTail]
    case Removed => ["", RemovedText]
    case FutureRename => ["", FutureRenameText, FutureTail]
    case FutureRemove => ["", FutureRemoveText]
    case FutureAccessChange => ["", FutureAccessChangeText, FutureTail]
    case FutureAccessRemove => ["", FutureAccessRemoveText]
  }

  /** `str(change)`: the record's template with its fields filled in. The message opens with
      the first field, quoted. */
  function Message(c: Change): (r: string)
    ensures Quote(c.Fields()[0]) <= r
  {
    RenderOpensWithFirstField(Template(c.Kind()), c.Fields());
    Render(Template(c.Kind()), c.Fields())
  }

  lemma RenderOne(t: seq<string>, f: seq<string>)
    requires |t| == 2 && |f| == 1 && t[0] == ""
    ensures Render(t, f) == Quote(f[0]) + t[1]
  {
    assert Render(t[..1], f[..0]) == "";
  }

  lemma RenderTwo(t: seq<string>, f: seq<string>)
    requires |t| == 3 && |f| == 2 && t[0] == ""
    ensures Render(t, f) == Quote(f[0]) + t[1] + Quote(f[1]) + t[2]
  {
    RenderOne(t[..2], f[..1]);
  }

  /** Each message is its template with the record's fields, quoted and unchanged, in
      field order: `"name" <text>` or `"name" <text> "new name" <tail>`. */
  lemma MessageLayout(c: Change)
    ensures Arity(c.Kind()) == 1 ==> Message(c) == Quote(c.Fields()[0]) + Template(c.Kind())[1]
    ensures Arity(c.Kind()) == 2 ==>
              Message(c) == Quote(c.Fields()[0]) + Template(c.Kind())[1] + Quote(c.Fields()[1]) + Template(c.Kind())[2]
  {
    var t, f := Template(c.Kind()), c.Fields();
    assert t[0] == "";
    if |f| == 1 {
      RenderOne(t, f);
    } else {
      RenderTwo(t, f);
    }
  }

  lemma {:induction false} RenderOpensWithFirstField(texts: seq<string>, fields: seq<string>)
    requires |texts| == |fields| + 1 && |fields| > 0 && texts[0] == ""
    ensures Quote(fields[0]) <= Render(texts, fields)
  {
    if |fields| > 1 {
      RenderOpensWithFirstField(texts[..|texts| - 1], fields[..|fields| - 1]);
    }
  }

  // A reader of messages, used to show that a message keeps its record's fields verbatim
  // and in order: quoted runs are collected as fields, everything else forms the skeleton.

  datatype Scanner = Scanner(quoted: bool, current: string, fields: seq<string>, skeleton: string)

  function Step(st: Scanner, ch: char): Scanner
  {
    if ch == '"' then
      if st.quoted then Scanner(false, "", st.fields + [st.current], st.skeleton + "\"")
      else Scanner(true, "", st.fields, st.skeleton + "\"")
    else if st.quoted then st.(current := st.current + [ch])
    else st.(skeleton := st.skeleton + [ch])
  }

  function ScanAll(st: Scanner, s: string): Scanner
  {
    if s == [] then st else Step(ScanAll(st, s[..|s| - 1]), s[|s| - 1])
  }

  /** The skeleton of a message of kind `k`: its template with every field left empty. */
  function Skeleton(k: Kind): string
  {
    Render(Template(k), seq(Arity(k), _ => ""))
  }

  /** Reads a message back into the record it was formatted from, if it is one. */
  function Decode(s: string): Option<Change>
  {
    var st := ScanAll(Scanner(false, "", [], ""), s);
    if st.quoted then None else FindKind(AllKinds, st)
  }

  function FindKind(ks: seq<Kind>, st: Scanner): Option<Change>
  {
    if ks == [] then None
    else if |st.fields| == Arity(ks[0]) && st.skeleton == Skeleton(ks[0]) then Some(Make(ks[0], st.fields))
    else FindKind(ks[1..], st)
  }

  lemma {:induction false} ScanAllAppend(st: Scanner, a: string, b: string)
    ensures ScanAll(st, a + b) == ScanAll(ScanAll(st, a), b)
    decreases |b|
  {
    if b == [] {
      assert a + b == a;
    } else {
      assert (a + b)[..|a + b| - 1] == a + b[..|b| - 1];
      ScanAllAppend(st, a, b[..|b| - 1]);
    }
  }

  lemma ScanQuote(st: Scanner)
    ensures ScanAll(st, "\"") == Step(st, '"')
  {
    assert "\""[..0] == [];
  }

  lemma {:induction false} ScanPlain(st: Scanner, t: string)
    requires QuoteFree(t)
    ensures ScanAll(st, t) == if st.quoted then st.(current := st.current + t) else st.(skeleton := st.skeleton + t)
    decreases |t|
  {
    if t != [] {
      ScanPlain(st, t[..|t| - 1]);
      assert t == t[..|t| - 1] + [t[|t| - 1]];
    }
  }

  /** Scanning one quoted field and the plain text after it. */
  lemma ScanQuotedField(st: Scanner, field: string, text: string)
    requires !st.quoted && st.current == ""
    requires QuoteFree(field) && QuoteFree(text)
    ensures ScanAll(st, Quote(field) + text)
         == Scanner(false, "", st.fields + [field], st.skeleton + Quote("") + text)
  {
    assert Quote(field) + text == "\"" + field + ("\"" + text);
    ScanOpenedField(st.fields, st.skeleton, field, "\"" + text);
    ScanClosedField(st.fields, st.skeleton + "\"", field, text);
    assert st.skeleton + "\"" + "\"" + text == st.skeleton + Quote("") + text;
  }

  /** An opening quote and a quote-free field put the scanner inside that field. */
  lemma ScanOpenedField(fields: seq<string>, skeleton: string, field: string, rest: string)
    requires QuoteFree(field)
    ensures ScanAll(Scanner(false, "", fields, skeleton), "\"" + field + rest)
         == ScanAll(Scanner(true, field, fields, skeleton + "\""), rest)
  {
    var st := Scanner(false, "", fields, skeleton);
    ScanAllAppend(st, "\"" + field, rest);
    ScanAllAppend(st, "\"", field);
    ScanQuote(st);
    ScanPlain(Scanner(true, "", fields, skeleton + "\""), field);
    assert "" + field == field;
  }

  /** A closing quote ends the field, and the quote-free text after it joins the skeleton. */
  lemma ScanClosedField(fields: seq<string>, skeleton: string, field: string, text: string)
    requires QuoteFree(text)
    ensures ScanAll(Scanner(true, field, fields, skeleton), "\"" + text)
         == Scanner(false, "", fields + [field], skeleton + "\"" + text)
  {
    var st := Scanner(true, field, fields, skeleton);
    ScanAllAppend(st, "\"", text);
    ScanQuote(st);
    ScanPlain(Scanner(false, "", fields + [field], skeleton + "\""), text);
  }

  /** A rendering with `n` fields is the rendering of the first `n - 1` followed by the
      last field, quoted, and the last text. */
  lemma RenderLast(texts: seq<string>, fields: seq<string>)
    requires |texts| == |fields| + 1 && fields != []
    ensures Render(texts, fields)
         == Render(texts[..|fields|], fields[..|fields| - 1]) + (Quote(fields[|fields| - 1]) + texts[|fields|])
  {
    SeqAssoc(Render(texts[..|texts| - 1], fields[..|fields| - 1]), Quote(fields[|fields| - 1]), texts[|texts| - 1]);
  }

  lemma SeqAssoc<T>(a: seq<T>, b: seq<T>, c: seq<T>)
    ensures a + b + c == a + (b + c)
  {
  }

  lemma BlankRenderLast(texts: seq<string>, n: nat)
    requires |texts| == n + 1 && n > 0
    ensures Render(texts, seq(n, _ => "")) == Render(texts[..n], seq(n - 1, _ => "")) + (Quote("") + texts[n])
  {
    var blanks := seq(n, _ => "");
    assert blanks[..n - 1] == seq(n - 1, _ => "");
    RenderLast(texts, blanks);
  }

  /** Scanning on past one more quoted field and its text, from where a scan ended. */
  lemma ScanOneMore(st: Scanner, front: string, mid: Scanner, field: string, text: string)
    requires ScanAll(st, front) == mid && !mid.quoted && mid.current == ""
    requires QuoteFree(field) && QuoteFree(text)
    ensures ScanAll(st, front + (Quote(field) + text))
         == Scanner(false, "", mid.fields + [field], mid.skeleton + Quote("") + text)
  {
    ScanAllAppend(st, front, Quote(field) + text);
    ScanQuotedField(mid, field, text);
  }

  /** The inductive step of `ScanRender`: from the scan of all but the last field to the
      scan of the whole rendering. */
  lemma ScanRenderStep(st: Scanner, texts: seq<string>, fields: seq<string>)
    requires |texts| == |fields| + 1 && fields != []
    requires !st.quoted && st.current == ""
    requires QuoteFree(fields[|fields| - 1]) && QuoteFree(texts[|fields|])
    requires ScanAll(st, Render(texts[..|fields|], fields[..|fields| - 1]))
          == Scanner(false, "", st.fields + fields[..|fields| - 1],
                     st.skeleton + Render(texts[..|fields|], seq(|fields| - 1, _ => "")))
    ensures ScanAll(st, Render(texts, fields))
         == Scanner(false, "", st.fields + fields, st.skeleton + Render(texts, seq(|fields|, _ => "")))
  {
    var n := |fields|;
    var skel := Render(texts[..n], seq(n - 1, _ => ""));
    var mid := Scanner(false, "", st.fields + fields[..n - 1], st.skeleton + skel);
    ScanOneMore(st, Render(texts[..n], fields[..n - 1]), mid, fields[n - 1], texts[n]);
    RenderLast(texts, fields);
    BlankRenderLast(texts, n);
    assert fields[..n - 1] + [fields[n - 1]] == fields;
    SeqAssoc(st.fields, fields[..n - 1], [fields[n - 1]]);
    SeqAssoc(st.skeleton + skel, Quote(""), texts[n]);
    SeqAssoc(st.skeleton, skel, Quote("") + texts[n]);
  }

  /** Scanning a rendered template collects its quoted fields and its skeleton. */
  lemma {:induction false} ScanRender(st: Scanner, texts: seq<string>, fields: seq<string>)
    requires |texts| == |fields| + 1
    requires !st.quoted && st.current == ""
    requires forall i :: 0 <= i < |texts| ==> QuoteFree(texts[i])
    requires forall i :: 0 <= i < |fields| ==> QuoteFree(fields[i])
    ensures ScanAll(st, Render(texts, fields))
         == Scanner(false, "", st.fields + fields, st.skeleton + Render(texts, seq(|fields|, _ => "")))
    decreases |fields|
  {
    if fields == [] {
      ScanPlain(st, texts[0]);
    } else {
      var n := |fields|;
      ScanRender(st, texts[..n], fields[..n - 1]);
      assert QuoteFree(fields[n - 1]) && QuoteFree(texts[n]);
      ScanRenderStep(st, texts, fields);
    }
  }

  lemma SkeletonLength(k: Kind)
    ensures |Skeleton(k)| == if TwoField(k) then |Template(k)[1]| + |Template(k)[2]| + 4
                             else |Template(k)[1]| + 2
  {
    var t, b := Template(k), seq(Arity(k), _ => "");
    if TwoField(k) {
      assert Render(t, b) == Render(t[..2], b[..1]) + Quote("") + t[2];
      assert Render(t[..2], b[..1]) == Render(t[..1], []) + Quote("") + t[1];
    } else {
      assert Render(t, b) == Render(t[..1], []) + Quote("") + t[1];
    }
  }

  lemma SkeletonsDiffer(k: Kind, j: Kind)
    requires k != j && Arity(k) == Arity(j)
    ensures Skeleton(k) != Skeleton(j)
  {
    SkeletonLength(k);
    SkeletonLength(j);
  }

  lemma TemplateQuoteFree(k: Kind)
    ensures forall i :: 0 <= i < |Template(k)| ==> QuoteFree(Template(k)[i])
  {
    match k
    case Renamed => RenamedTextQuoteFree();
    case Removed => RemovedTextQuoteFree();
    case FutureRename => FutureRenameTextQuoteFree();
    case FutureRemove => FutureRemoveTextQuoteFree();
    case FutureAccessChange => FutureAccessChangeTextQuoteFree();
    case FutureAccessRemove => FutureAccessRemoveTextQuoteFree();
  }

  lemma {:induction false} FindKindFinds(ks: seq<Kind>, st: Scanner, c: Change)
    requires c.Kind() in ks
    requires st.fields == c.Fields() && st.skeleton == Skeleton(c.Kind())
    ensures FindKind(ks, st) == Some(c)
  {
    if ks[0] != c.Kind() {
      if |st.fields| == Arity(ks[0]) {
        SkeletonsDiffer(ks[0], c.Kind());
      }
      FindKindFinds(ks[1..], st, c);
    }
  }

  /** Every message can be read back into its record when the names hold no double quote:
      `str(change)` embeds each field verbatim and in order, and its fixed text tells the
      kinds apart. */
  lemma DecodeMessage(c: Change)
    requires forall i :: 0 <= i < |c.Fields()| ==> QuoteFree(c.Fields()[i])
    ensures Decode(Message(c)) == Some(c)
  {
    var texts := Template(c.Kind());
    TemplateQuoteFree(c.Kind());
    ScanRender(Scanner(false, "", [], ""), texts, c.Fields());
    FindKindFinds(AllKinds, ScanAll(Scanner(false, "", [], ""), Message(c)), c);
  }

  /** Two records with quote-free names have the same message only if they are equal. */
  lemma MessageInjective(c: Change, d: Change)
    requires forall i :: 0 <= i < |c.Fields()| ==> QuoteFree(c.Fields()[i])
    requires forall i :: 0 <= i < |d.Fields()| ==> QuoteFree(d.Fields()[i])
    requires Message(c) == Message(d)
    ensures c == d
  {
    DecodeMessage(c);
    DecodeMessage(d);
  }
}

=== FILE: concat.dfy ===
/**
  Joining a sequence of partial results, each either a list or a failure, into one list
  that fails as soon as one part does: the shape of a loop that appends each pass's
  output and stops at the first pass that raises.
 */
module Concatenation {
  import opened Wrappers

  /** The parts joined in order, or `None` when one of them is `None`. */
  function Concat<T>(parts: seq<Option<seq<T>>>): Option<seq<T>>
  {
    if parts == [] then Some([])
    else
      match Concat(parts[..|parts| - 1])
      case None => None
      case Some(p) =>
        match parts[|parts| - 1]
        case None => None
        case Some(c) => Some(p + c)
  }

  /** The join succeeds iff every part does. */
  lemma {:induction false} ConcatSome<T>(parts: seq<Option<seq<T>>>)
    ensures Concat(parts).Some? <==> forall t :: 0 <= t < |parts| ==> parts[t].Some?
  {
    if parts != [] {
      var front := parts[..|parts| - 1];
      ConcatSome(front);
      assert forall t :: 0 <= t < |front| ==> front[t] == parts[t];
    }
  }

  lemma ConcatOne<T>(part: Option<seq<T>>)
    ensures Concat([part]) == part
  {
    assert [part][..0] == [];
    if part.Some? {
      assert [] + part.value == part.value;
    }
  }

  /** Joining `ps + qs` is joining `ps`, joining `qs`, and appending the two. */
  lemma {:induction false} ConcatAppend<T>(ps: seq<Option<seq<T>>>, qs: seq<Option<seq<T>>>)
    ensures Concat(ps + qs).Some? <==> Concat(ps).Some? && Concat(qs).Some?
    ensures Concat(ps + qs).Some? ==> Concat(ps + qs).value == Concat(ps).value + Concat(qs).value
    decreases |qs|
  {
    if qs == [] {
      assert ps + qs == ps;
      if Concat(ps).Some? {
        assert Concat(ps).value + [] == Concat(ps).value;
      }
    } else {
      var n := |qs|;
      var front := qs[..n - 1];
      ConcatAppend(ps, front);
      assert (ps + qs)[..|ps + qs| - 1] == ps + front;
      assert (ps + qs)[|ps + qs| - 1] == qs[n - 1];
      if Concat(ps).Some? && Concat(front).Some? && qs[n - 1].Some? {
        var a, b, c := Concat(ps).value, Concat(front).value, qs[n - 1].value;
        assert a + b + c == a + (b + c);
      }
    }
  }

  /** Every element of a successful join is an element of one of the parts. */
  lemma {:induction false} ConcatOrigin<T>(parts: seq<Option<seq<T>>>, q: nat)
    requires Concat(parts).Some? && q < |Concat(parts).value|
    ensures exists t, i :: 0 <= t < |parts| && parts[t].Some? && 0 <= i < |parts[t].value| &&
              Concat(parts).value[q] == parts[t].value[i]
  {
    var n := |parts|;
    var front := parts[..n - 1];
    var p := Concat(front).value;
    if q < |p| {
      ConcatOrigin(front, q);
      var t, i :| 0 <= t < |front| && front[t].Some? && 0 <= i < |front[t].value| && p[q] == front[t].value[i];
      assert front[t] == parts[t];
    } else {
      assert Concat(parts).value[q] == parts[n - 1].value[q - |p|];
    }
  }
}

=== FILE: module_api.dfy ===
/**
  `ModuleAPI` and `get_attribute`: a module wrapped so that attribute access consults a
  dictionary of change records. A name with no record is looked up in the module; a
  removed name raises with the record's message; a name due for removal warns and is
  still looked up in the module; every other record warns and resolves the record's new
  dotted name instead.

  A module is abstracted as its `dir()` listing and its attribute values; the module
  registry (`sys.modules`, and what `import_module` could load) as two maps from module
  name to module; `usage_warning` as the warning an access returns beside its outcome.
 */
module ModuleApis {
  import opened Wrappers
  import opened DottedNames
  import opened MessageTexts
  import opened ChangeRecords

  /** A module: the names `dir(module)` lists, in that order, and its attribute values. */
  datatype Namespace<V> = Namespace(listing: seq<string>, attrs: map<string, V>)
  {
    /** `dir(module)` lists attributes the module has. */
    predicate Valid()
    {
      forall x :: x in listing ==> x in attrs
    }
  }

  /** What an attribute access evaluates to, or the exception it raises. */
  datatype Outcome<V> =
    | Found(value: V)
      /** The `AttributeError` plain `getattr` raises on a name the module lacks. */
    | NoAttribute(name: string)
      /** The `AttributeError` raised with a removed object's message. */
    | AttributeError(message: string)
    | AssertionError(message: string)
      /** `import_module` failing to find the module. */
    | ImportError(moduleName: string)
      /** `change[1]` on a one-field record. */
    | IndexError

  /** One access through the wrapper: the warning it emits, if any, and its outcome. */
  datatype Access<V> = Access(warning: Option<string>, outcome: Outcome<V>)

  /** The modules `get_attribute` can reach: those already in `sys.modules`, and those
      `import_module` would load. */
  datatype Modules<V> = Modules(loaded: map<string, Namespace<V>>, importable: map<string, Namespace<V>>)

  /** `getattr(module, name)`. */
  function Lookup<V>(mod: Namespace<V>, name: string): Outcome<V>
  {
    if name in mod.attrs then Found(mod.attrs[name]) else NoAttribute(name)
  }

  /** `sys.modules.get(name)`, falling back on `import_module(name)`; `None` where the
      import raises. */
  function FindModule<V>(modules: Modules<V>, name: string): Option<Namespace<V>>
  {
    if name in modules.loaded then Some(modules.loaded[name])
    else if name in modules.importable then Some(modules.importable[name])
    else None
  }

  // ----- get_attribute -----

  /** The assertion message `get_attribute` raises with as written: the template is never
      formatted, so the placeholder stays in the text whatever the name was. */
  function NoNamespaceMessageAsWritten(attribute: string): string
  {
    "\"{0}\"" + " attribute has no namespace!"
  }

  /** The assertion message as evidently intended: the offending name, quoted. */
  function NoNamespaceMessage(attribute: string): string
  {
    Quote(attribute) + " attribute has no namespace!"
  }

  /** The message as written is the same for every name, so it cannot say which name had
      no namespace. */
  lemma NoNamespaceMessageAsWrittenIgnoresName(a: string, b: string)
    ensures NoNamespaceMessageAsWritten(a) == NoNamespaceMessageAsWritten(b)
    ensures NoNamespaceMessageAsWritten("eotf_BT2020") != NoNamespaceMessage("eotf_BT2020")
  {
    assert NoNamespaceMessage("eotf_BT2020")[1] == 'e';
    assert NoNamespaceMessageAsWritten("eotf_BT2020")[1] == '{';
  }

  /** The intended message names the attribute: different names give different messages. */
  lemma NoNamespaceMessageNamesAttribute(a: string, b: string)
    requires NoNamespaceMessage(a) == NoNamespaceMessage(b)
    ensures a == b
  {
    MiddleCancels("\"", a, b, "\"", " attribute has no namespace!");
  }

  /** Two sequences that differ only in their middle part have equal middle parts. */
  lemma MiddleCancels<T>(pre: seq<T>, x: seq<T>, y: seq<T>, mid: seq<T>, post: seq<T>)
    requires pre + x + mid + post == pre + y + mid + post
    ensures x == y
  {
    var s, t := pre + x + mid + post, pre + y + mid + post;
    assert |x| == |y|;
    assert x == s[|pre|..|pre| + |x|];
    assert y == t[|pre|..|pre| + |y|];
  }

  /** `get_attribute(path)` once the namespace check has passed: split at the last '.',
      find the module, read the attribute. */
  function Resolve<V>(path: string, modules: Modules<V>): Outcome<V>
    requires '.' in path
  {
    RSplitDotSplits(path);
    var split := RSplitDot(path).value;
    match FindModule(modules, split.0)
    case None => ImportError(split.0)
    case Some(mod) => Lookup(mod, split.1)
  }

  /** `get_attribute(path)` as written. */
  function GetAttributeAsWritten<V>(path: string, modules: Modules<V>): (r: Outcome<V>)
    ensures '.' !in path ==> r == AssertionError(NoNamespaceMessageAsWritten(path))
  {
    if '.' !in path then AssertionError(NoNamespaceMessageAsWritten(path))
    else Resolve(path, modules)
  }

  /** `get_attribute(path)` with the assertion message formatted. */
  function GetAttribute<V>(path: string, modules: Modules<V>): (r: Outcome<V>)
    ensures r.AssertionError? <==> '.' !in path
    ensures '.' !in path ==> r.message == NoNamespaceMessage(path)
  {
    if '.' !in path then AssertionError(NoNamespaceMessage(path))
    else Resolve(path, modules)
  }

  /** A name with a namespace resolves to the attribute after its last '.' in the module
      named by everything before it; the two versions agree on every such name. */
  lemma {:induction false} GetAttributeQualified<V>(namespace: string, attribute: string, modules: Modules<V>)
    requires '.' !in attribute
    ensures GetAttribute(namespace + "." + attribute, modules)
         == match FindModule(modules, namespace)
            case None => ImportError(namespace)
            case Some(mod) => Lookup(mod, attribute)
    ensures GetAttributeAsWritten(namespace + "." + attribute, modules)
         == GetAttribute(namespace + "." + attribute, modules)
  {
    var path := namespace + "." + attribute;
    assert path[|namespace|] == '.';
    RSplitDotOfJoin(namespace, attribute);
  }

  /** The two versions agree on every name with a namespace. On a name without one they
      raise the same assertion with different messages, except for the one name that reads
      like the unformatted placeholder. */
  lemma GetAttributeVersionsDiffer<V>(path: string, modules: Modules<V>)
    ensures '.' in path ==> GetAttributeAsWritten(path, modules) == GetAttribute(path, modules)
    ensures '.' !in path && path != "{0}" ==>
              GetAttributeAsWritten(path, modules).message != GetAttribute(path, modules).message
  {
    if '.' !in path && NoNamespaceMessageAsWritten(path) == NoNamespaceMessage(path) {
      assert NoNamespaceMessageAsWritten(path) == NoNamespaceMessage("{0}");
      NoNamespaceMessageNamesAttribute(path, "{0}");
    }
  }

  // ----- ModuleAPI -----

  /** A wrapped module: `_module` and `_changes`, set once on construction. */
  datatype ModuleApi<V> = ModuleApi(mod: Namespace<V>, changes: map<string, Change>)

  /** `ModuleAPI(module, changes=None)`: `changes or {}`. */
  function NewModuleApi<V>(mod: Namespace<V>, changes: Option<map<string, Change>>): ModuleApi<V>
  {
    ModuleApi(mod, if changes.Some? then changes.value else map[])
  }

  /** `__getattr__` as written: a future access removal warns, then reads `change[1]`,
      which a one-field record does not have. */
  function GetAttrAsWritten<V>(api: ModuleApi<V>, attribute: string, modules: Modules<V>): (r: Access<V>)
    ensures r.warning.Some? <==> attribute in api.changes && !api.changes[attribute].ObjectRemoved?
    ensures r.warning.Some? ==> r.warning.value == Message(api.changes[attribute])
    ensures attribute !in api.changes ==> r.outcome == Lookup(api.mod, attribute)
    ensures attribute in api.changes && api.changes[attribute].ObjectRemoved? ==>
              r.outcome == AttributeError(Message(api.changes[attribute]))
    ensures attribute in api.changes && api.changes[attribute].ObjectFutureRemove? ==>
              r.outcome == Lookup(api.mod, attribute)
    ensures attribute in api.changes && api.changes[attribute].ObjectFutureAccessRemove? ==> r.outcome == IndexError
    ensures attribute in api.changes && TwoField(api.changes[attribute].Kind()) ==>
              r.outcome == GetAttributeAsWritten(api.changes[attribute].Fields()[1], modules)
  {
    if attribute !in api.changes then Access(None, Lookup(api.mod, attribute))
    else
      var change := api.changes[attribute];
      if change.ObjectRemoved? then Access(None, AttributeError(Message(change)))
      else if change.ObjectFutureRemove? then Access(Some(Message(change)), Lookup(api.mod, attribute))
      else if change.ObjectFutureAccessRemove? then Access(Some(Message(change)), IndexError)
      else Access(Some(Message(change)), GetAttributeAsWritten(change.Fields()[1], modules))
  }

  /** `__getattr__` as evidently intended: an access due for removal warns and still reads
      the module, as a future removal does. */
  function GetAttr<V>(api: ModuleApi<V>, attribute: string, modules: Modules<V>): (r: Access<V>)
    ensures r.warning.Some? <==> attribute in api.changes && !api.changes[attribute].ObjectRemoved?
    ensures r.warning.Some? ==> r.warning.value == Message(api.changes[attribute])
    ensures attribute !in api.changes ==> r.outcome == Lookup(api.mod, attribute)
    ensures attribute in api.changes && api.changes[attribute].ObjectRemoved? ==>
              r.outcome == AttributeError(Message(api.changes[attribute]))
    ensures attribute in api.changes && TwoField(api.changes[attribute].Kind()) ==>
              r.outcome == GetAttribute(api.changes[attribute].Fields()[1], modules)
  {
    if attribute !in api.changes then Access(None, Lookup(api.mod, attribute))
    else
      var change := api.changes[attribute];
      if change.ObjectRemoved? then Access(None, AttributeError(Message(change)))
      else if change.ObjectFutureRemove? || change.ObjectFutureAccessRemove? then
        Access(Some(Message(change)), Lookup(api.mod, attribute))
      else Access(Some(Message(change)), GetAttribute(change.Fields()[1], modules))
  }

  /** A record that is only a warning (future removal of the object or of its access)
      leaves the value as the module has it. */
  lemma FutureRemovalsStillRead<V>(api: ModuleApi<V>, attribute: string, modules: Modules<V>)
    requires attribute in api.changes && !TwoField(api.changes[attribute].Kind())
    requires !api.changes[attribute].ObjectRemoved?
    ensures GetAttr(api, attribute, modules).outcome == Lookup(api.mod, attribute)
  {
  }

  /** A rename or access change resolves the record's new dotted name: its attribute in the
      module that name's namespace points at. */
  lemma RenamedResolvesNewName<V>(api: ModuleApi<V>, attribute: string, modules: Modules<V>,
                                  namespace: string, newAttribute: string)
    requires attribute in api.changes && TwoField(api.changes[attribute].Kind())
    requires '.' !in newAttribute && api.changes[attribute].Fields()[1] == namespace + "." + newAttribute
    ensures GetAttr(api, attribute, modules).outcome
         == match FindModule(modules, namespace)
            case None => ImportError(namespace)
            case Some(mod) => Lookup(mod, newAttribute)
  {
    GetAttributeQualified(namespace, newAttribute, modules);
  }

  /** A rename or access change whose new name has no namespace warns, then fails the
      assertion of `get_attribute` on that new name. */
  lemma UndottedNewNameFailsAssertion<V>(api: ModuleApi<V>, attribute: string, modules: Modules<V>)
    requires attribute in api.changes && TwoField(api.changes[attribute].Kind())
    requires '.' !in api.changes[attribute].Fields()[1]
    ensures GetAttr(api, attribute, modules)
         == Access(Some(Message(api.changes[attribute])),
                   AssertionError(NoNamespaceMessage(api.changes[attribute].Fields()[1])))
    ensures GetAttrAsWritten(api, attribute, modules)
         == Access(Some(Message(api.changes[attribute])),
                   AssertionError(NoNamespaceMessageAsWritten(api.changes[attribute].Fields()[1])))
  {
  }

  /** A module wrapped without changes behaves as the module itself: every access is a
      plain lookup with no warning, and `__dir__` lists every name of the module. */
  lemma UnchangedModuleIsTransparent<V>(mod: Namespace<V>, modules: Modules<V>, x: string)
    ensures NewModuleApi(mod, None).changes == map[]
    ensures NewModuleApi(mod, Some(map[])) == NewModuleApi(mod, None)
    ensures GetAttr(NewModuleApi(mod, None), x, modules) == Access(None, Lookup(mod, x))
    ensures GetAttrAsWritten(NewModuleApi(mod, None), x, modules) == Access(None, Lookup(mod, x))
    ensures Dir(NewModuleApi(mod, None)) == mod.listing
  {
    var changes: map<string, Change> := map[];
    assert changes.Keys == {};
    WithoutNothing(mod.listing);
  }

  /** The warning an access emits names the record exactly: reading it back gives the
      record, provided no field holds a double quote. */
  lemma WarningIdentifiesRecord<V>(api: ModuleApi<V>, attribute: string, modules: Modules<V>)
    requires attribute in api.changes
    requires var c := api.changes[attribute]; forall i :: 0 <= i < |c.Fields()| ==> QuoteFree(c.Fields()[i])
    requires GetAttr(api, attribute, modules).warning.Some?
    ensures Decode(GetAttr(api, attribute, modules).warning.value) == Some(api.changes[attribute])
  {
    DecodeMessage(api.changes[attribute]);
  }

  /** The two versions of `__getattr__` differ only on a future access removal, where the
      version as written warns and then raises `IndexError`. */
  lemma GetAttrVersionsAgree<V>(api: ModuleApi<V>, attribute: string, modules: Modules<V>)
    requires attribute in api.changes ==> !api.changes[attribute].ObjectFutureAccessRemove?
    requires attribute in api.changes && TwoField(api.changes[attribute].Kind()) ==>
               '.' in api.changes[attribute].Fields()[1]
    ensures GetAttrAsWritten(api, attribute, modules) == GetAttr(api, attribute, modules)
  {
    if attribute in api.changes && TwoField(api.changes[attribute].Kind()) {
      GetAttributeVersionsDiffer(api.changes[attribute].Fields()[1], modules);
    }
  }

  /** Any access to a name recorded as a future access removal raises in the version as
      written, though the record only announces a future change; the corrected version
      returns the module's value. */
  lemma FutureAccessRemoveAsWritten<V>(api: ModuleApi<V>, attribute: string, modules: Modules<V>)
    requires attribute in api.changes && api.changes[attribute].ObjectFutureAccessRemove?
    ensures GetAttrAsWritten(api, attribute, modules)
         == Access(Some(Message(api.changes[attribute])), IndexError)
    ensures GetAttr(api, attribute, modules)
         == Access(Some(Message(api.changes[attribute])), Lookup(api.mod, attribute))
  {
  }

  /** `names` without those in `hidden`, in their order. */
  function Without(names: seq<string>, hidden: set<string>): seq<string>
  {
    if names == [] then []
    else
      var front := Without(names[..|names| - 1], hidden);
      var last := names[|names| - 1];
      if last in hidden then front else front + [last]
  }

  /** The filtered listing holds exactly the names not hidden, and is no longer. */
  lemma {:induction false} WithoutMembers(names: seq<string>, hidden: set<string>)
    ensures |Without(names, hidden)| <= |names|
    ensures forall x :: x in Without(names, hidden) <==> x in names && x !in hidden
  {
    if names != [] {
      var front := names[..|names| - 1];
      WithoutMembers(front, hidden);
      assert names == front + [names[|names| - 1]];
    }
  }

  /** Filtering distributes over concatenation, so it keeps the listing's order. */
  lemma {:induction false} WithoutAppend(a: seq<string>, b: seq<string>, hidden: set<string>)
    ensures Without(a + b, hidden) == Without(a, hidden) + Without(b, hidden)
    decreases |b|
  {
    if b == [] {
      assert a + b == a;
    } else {
      var n := |b|;
      WithoutAppend(a, b[..n - 1], hidden);
      assert (a + b)[..|a + b| - 1] == a + b[..n - 1];
    }
  }

  /** Hiding no name keeps the whole listing. */
  lemma {:induction false} WithoutNothing(names: seq<string>)
    ensures Without(names, {}) == names
  {
    if names != [] {
      WithoutNothing(names[..|names| - 1]);
      assert names == names[..|names| - 1] + [names[|names| - 1]];
    }
  }

  /** `__dir__`: the module's names that have no change record, in the module's order. */
  function Dir<V>(api: ModuleApi<V>): (r: seq<string>)
    ensures forall x :: x in r <==> x in api.mod.listing && x !in api.changes
  {
    WithoutMembers(api.mod.listing, api.changes.Keys);
    Without(api.mod.listing, api.changes.Keys)
  }

  /** Every name `__dir__` lists is read straight from the module, with no warning. */
  lemma DirNamesArePlain<V>(api: ModuleApi<V>, modules: Modules<V>, x: string)
    requires api.mod.Valid() && x in Dir(api)
    ensures GetAttr(api, x, modules) == Access(None, Found(api.mod.attrs[x]))
    ensures GetAttrAsWritten(api, x, modules) == GetAttr(api, x, modules)
  {
  }
}

=== FILE: names.dfy ===
/**
  Dotted object names such as `colour.models.eotf_BT2020`: the two ways the
  deprecation utilities take such a name apart.
 */
module DottedNames {
  import opened Wrappers

  /** `s.split('.')[-1]`: the text after the last '.', or all of `s` when it holds no '.'. */
  function ShortName(s: string): string
  {
    if s == [] then []
    else if s[|s| - 1] == '.' then []
    else ShortName(s[..|s| - 1]) + [s[|s| - 1]]
  }

  /** The short name is the dot-free suffix of `s` that is either all of `s` or preceded
      by a '.', which singles out the text after the last '.'. */
  lemma {:induction false} ShortNameIsLastPart(s: string)
    ensures '.' !in ShortName(s)
    ensures |ShortName(s)| <= |s| && ShortName(s) == s[|s| - |ShortName(s)|..]
    ensures |ShortName(s)| < |s| ==> s[|s| - |ShortName(s)| - 1] == '.'
    ensures '.' !in s ==> ShortName(s) == s
  {
    if s != [] && s[|s| - 1] != '.' {
      var front, last := s[..|s| - 1], s[|s| - 1];
      ShortNameIsLastPart(front);
      var r := ShortName(front);
      assert ShortName(s) == r + [last];
      assert s[|s| - |r| - 1..] == front[|front| - |r|..] + [last];
      if |r| < |front| {
        assert s[|s| - |r| - 2] == front[|front| - |r| - 1];
      }
      if '.' !in s {
        assert '.' !in front;
        assert s == front + [last];
      }
    }
  }

  /** `s.rsplit('.', 1)` on a name that holds a '.': the namespace before the last '.' and
      the attribute after it. `None` when there is no '.' to split at. */
  function RSplitDot(s: string): Option<(string, string)>
  {
    if '.' !in s then None
    else
      var attribute := ShortName(s);
      ShortNameIsLastPart(s);
      Some((s[..|s| - |attribute| - 1], attribute))
  }

  /** The split fails exactly on a name without '.'; otherwise namespace + "." + attribute
      rebuilds the name and the attribute holds no '.'. */
  lemma RSplitDotSplits(s: string)
    ensures RSplitDot(s).None? <==> '.' !in s
    ensures RSplitDot(s).Some? ==> RSplitDot(s).value.0 + "." + RSplitDot(s).value.1 == s
    ensures RSplitDot(s).Some? ==> '.' !in RSplitDot(s).value.1
  {
    ShortNameIsLastPart(s);
    if '.' in s {
      var attribute := ShortName(s);
      var k := |s| - |attribute| - 1;
      assert s[k] == '.';
      assert s[k + 1..] == attribute;
      assert s == s[..k] + [s[k]] + s[k + 1..];
    }
  }

  /** Joining a namespace and a dot-free attribute with a '.' and taking the short name
      gives the attribute back. */
  lemma ShortNameOfJoin(namespace: string, attribute: string)
    requires '.' !in attribute
    ensures ShortName(namespace + "." + attribute) == attribute
  {
    var s := namespace + "." + attribute;
    var r := ShortName(s);
    ShortNameIsLastPart(s);
    assert s[|s| - |attribute| - 1] == '.';
    assert r == s[|s| - |attribute|..] == attribute;
  }

  /** `rsplit('.', 1)` undoes the join of a namespace and a dot-free attribute. */
  lemma RSplitDotOfJoin(namespace: string, attribute: string)
    requires '.' !in attribute
    ensures RSplitDot(namespace + "." + attribute) == Some((namespace, attribute))
  {
    var s := namespace + "." + attribute;
    ShortNameOfJoin(namespace, attribute);
    assert s[..|s| - |attribute| - 1] == namespace;
  }

  /** The attribute `rsplit` keeps is the short name `split('.')[-1]` gives, so both
      utilities agree on which part of a dotted name names the object. */
  lemma RSplitDotAgreesWithShortName(s: string)
    requires '.' in s
    ensures RSplitDot(s).Some? && RSplitDot(s).value.1 == ShortName(s)
  {
    RSplitDotSplits(s);
  }
}

=== FILE: texts.dfy ===
/**
  The fixed text of the six message templates: the literal parts of each record's
  `__str__` format string outside its quoted placeholders. The longer texts are joined
  from short pieces; each joins to its template's text exactly.
 */
module MessageTexts {

  const RenamedText := " object has been" + " renamed to "
  const RenamedTail := "."
  const RemovedText := " object has been" + " removed from the API."
  const FutureRenameText := " object is deprecated" + " and will be renamed to "
  const FutureTail := " in a future release."
  const FutureRemoveText := " object is deprecated" + " and will be removed" + " in a future release."
  const FutureAccessChangeText := " object access is" + " deprecated and will" + " change to "
  const FutureAccessRemoveText := " object access will" + " be removed" + " in a future release."

  predicate QuoteFree(s: string)
  {
    '"' !in s
  }

  lemma QuoteFreeConcat(a: string, b: string)
    requires QuoteFree(a) && QuoteFree(b)
    ensures QuoteFree(a + b)
  {
  }

  // None of the texts holds a double quote.

  lemma RenamedTextQuoteFree()
    ensures QuoteFree(RenamedText) && QuoteFree(RenamedTail)
  {
    QuoteFreeConcat(" object has been", " renamed to ");
  }

  lemma RemovedTextQuoteFree()
    ensures QuoteFree(RemovedText)
  {
    QuoteFreeConcat(" object has been", " removed from the API.");
  }

  lemma FutureRenameTextQuoteFree()
    ensures QuoteFree(FutureRenameText) && QuoteFree(FutureTail)
  {
    QuoteFreeConcat(" object is deprecated", " and will be renamed to ");
  }

  lemma FutureRemoveTextQuoteFree()
    ensures QuoteFree(FutureRemoveText)
  {
    QuoteFreeConcat(" object is deprecated", " and will be removed");
    QuoteFreeConcat(" object is deprecated" + " and will be removed", " in a future release.");
  }

  lemma FutureAccessChangeTextQuoteFree()
    ensures QuoteFree(FutureAccessChangeText) && QuoteFree(FutureTail)
  {
    QuoteFreeConcat(" object access is", " deprecated and will");
    QuoteFreeConcat(" object access is" + " deprecated and will", " change to ");
  }

  lemma FutureAccessRemoveTextQuoteFree()
    ensures QuoteFree(FutureAccessRemoveText)
  {
    QuoteFreeConcat(" object access will", " be removed");
    QuoteFreeConcat(" object access will" + " be removed", " in a future release.");
  }
}

=== FILE: wrappers.dfy ===
/** Optional values and results, used for Python's `None` and for its exceptions. */
module Wrappers {

  datatype Option<+T> = None | Some(value: T)

  datatype Result<+T, +E> = Success(value: T) | Failure(error: E)
}
